=== FILE: README.md ===
# quickfill: OCR extraction and form-filling helpers, modelled in Dafny

This project models the parts of quickfill that turn an Amazon Textract AnalyzeDocument
response into plain text, key-value dicts and tables. It also models the two dict
manipulations of the form-filling step:

- `flatten_keys`, which turns a nested target dict into `$$`-joined keys. The auto-mode
  schema is built from those keys.
- `update_nested_dict`, which writes the language model's answers into the `Value` field of
  the extracted entries.

## Files

- `results.dfy` (module `Results`): the `Option` and `Result` types and `Collect`.
  `Collect` runs a list of attempts and stops at the first failure, as a Python loop does
  when an iteration raises.
- `json.dfy` (module `JsonValue`): JSON values. An object is its list of entries in
  iteration order.
- `pystr.dfy` (module `PyStr`): Python's `str.strip` and `sep.join`.
- `pydict.dfy` (module `PyDict`): a dict built by successive `d[k] = v`, and the order in
  which that dict iterates its keys.
- `textract_types.dfy` (module `TextractTypes`): blocks, relationships, the response, and
  `Fault`, the exception a malformed response raises.
- `aws_text_extract.dfy` (module `AwsTextExtract`): models `quickfill/ocr/aws_text_extract.py`.
- `form_filling.dfy` (module `FormFilling`): `flatten_keys` and the schema that
  `ai_form_filling` builds.
- `ai_form_filling.dfy` (module `AiFormFilling`): `update_nested_dict`.

## How the model is built

- **Exceptions are values.** Each of these becomes `Err(fault)`:
  - a missing optional field of a block (`Text`, `EntityTypes`, `Relationships` or
    `SelectionStatus`), which raises `KeyError`;
  - a child id that `block_map` lacks;
  - a `None` used as a block (`TypeError`);
  - an undefined name (`NameError`).

  They are not preconditions, so the lemmas can state when extraction fails. The fields
  that Textract always sends are mandatory in the types (see "Left out").
- **Dicts are specification functions.** A dict filled by a loop is `PyDict.LastWins` of the
  assignments the loop makes: later assignments win. `key_map`'s iteration order is
  `PyDict.InsertionOrder` of its assignments.
- **Loops are methods.** Every loop of the source is a method with a `while` loop, proved
  equal to a specification function. The functions have lemmas for the properties.
- **`update_nested_dict` changes its argument in place.** It is a method of the class
  `NestedDict`, whose `entries` field is the dict being updated.

### Behaviour of the code that the model follows

- **`get_text_from_block` never reads a child.** It looks its children up in `blocks`, a
  name that is not defined inside it. A table cell without `Text` that has a `CHILD`
  relationship with at least one id therefore raises `NameError`.
  - `CellText` and `GetTextFromBlock` return `Err(UndefinedName("blocks"))` there.
  - `CellWithWordsFails` shows that one such cell makes the whole table extraction fail.
- **The `if value_block:` test always passes.** In `extract_key_value_pairs`, `get_text` on a
  missing value block raises before the test is reached. So `key_value_pairs` and
  `key_value_pairs_obj` always have the same keys (`DictsKeys`).
  - A key block without a value block makes the whole extraction fail
    (`KeyValuesNeedValueBlocks`). The model treats this as an error of the call, not as a
    precondition on the input.
- **`flatten_keys` drops an empty key.** The test `if parent_key` treats an empty key as no
  parent, so `{"": {"b": 1}}` flattens to `b`, not `$$b` (`EmptyKeySwallowed`). A path's
  key is its segments joined by `$$` exactly when the path has at most one segment or its
  first segment is not empty (`KeyOfIsJoin`, `KeyOfIsJoinExactly`).

## Model

| member | source | states |
|---|---|---|
| AwsTextExtract.GetTextFromResponse | quickfill/ocr/aws_text_extract.py:43-49 | the loop returns the `Text` of each `LINE` block, each followed by a newline, or the error of the first `LINE` without `Text` |
| AwsTextExtract.LinesTextAppend | quickfill/ocr/aws_text_extract.py:46-48 | the text of two block lists one after the other is the concatenation of their texts, or the first error |
| AwsTextExtract.LinesTextOnlyLines | quickfill/ocr/aws_text_extract.py:47 | blocks that are not `LINE` blocks contribute nothing |
| AwsTextExtract.LinesTextFails | quickfill/ocr/aws_text_extract.py:48 | the plain text fails if and only if some `LINE` block has no `Text` |
| AwsTextExtract.LinesTextOfLine | quickfill/ocr/aws_text_extract.py:48 | one `LINE` block with text gives exactly that text plus a newline |
| AwsTextExtract.IndexOf | quickfill/ocr/aws_text_extract.py:59-66 | on success `key_map` iterates each of its keys exactly once |
| AwsTextExtract.IndexStep | quickfill/ocr/aws_text_extract.py:59-66 | one more block is added to `block_map`, and to `key_map` or `value_map` by its kind; `key_map`'s order grows only by a new key |
| AwsTextExtract.IndexBlocks | quickfill/ocr/aws_text_extract.py:59-66 | the first loop builds `block_map`, `key_map` in iteration order and `value_map`, or fails on a `KEY_VALUE_SET` block without `EntityTypes` |
| AwsTextExtract.EntriesMembers | quickfill/ocr/aws_text_extract.py:61-66 | a dict receives an assignment exactly for each block of its kind, under that block's `Id` |
| AwsTextExtract.IndexKeys | quickfill/ocr/aws_text_extract.py:61-66 | a dict's keys are the ids of the blocks of its kind, and each key maps to a block of that kind with that id |
| AwsTextExtract.IndexHoldsBlocks | quickfill/ocr/aws_text_extract.py:59-66 | every block is in `block_map` under its `Id`; `key_map` holds only key blocks and `value_map` only value blocks; both are within `block_map` |
| AwsTextExtract.IndexPartition | quickfill/ocr/aws_text_extract.py:59-66 | with distinct ids, `block_map` maps each id to its block, a block is in `key_map` if and only if it is a key block and in `value_map` if and only if it is a value block, and the two are disjoint |
| AwsTextExtract.IndexFails | quickfill/ocr/aws_text_extract.py:63 | indexing fails if and only if some `KEY_VALUE_SET` block has no `EntityTypes` |
| AwsTextExtract.FirstWithoutEntityTypesSpec | quickfill/ocr/aws_text_extract.py:62-63 | no failing block is found if and only if every `KEY_VALUE_SET` block has `EntityTypes` |
| AwsTextExtract.FindValueBlock | quickfill/ocr/aws_text_extract.py:84-91 | the value block is the first `VALUE` id that `value_map` holds, `None` if there is none, and an error when the key block has no `Relationships` |
| AwsTextExtract.FirstHeldIsFirst | quickfill/ocr/aws_text_extract.py:87-90 | nothing is found if and only if no id is held; otherwise the block found belongs to the first held id |
| AwsTextExtract.ValueBlockOnlyValueRelationships | quickfill/ocr/aws_text_extract.py:85-86 | dropping every relationship that is not `VALUE` does not change the value block |
| AwsTextExtract.GetText | quickfill/ocr/aws_text_extract.py:93-105 | the text is each `WORD` child's `Text` and `X` for each selected selection element, each followed by a space, then stripped; it fails on an unknown child id or a missing field |
| AwsTextExtract.IdsWordsAreWords | quickfill/ocr/aws_text_extract.py:98-104 | when the words of a list of ids are computed, every id is in `block_map` and the words are what each child contributes, in order |
| AwsTextExtract.RelsWordsAreWords | quickfill/ocr/aws_text_extract.py:96-104 | when a block's words are computed, they are the contributions of its `CHILD` ids in order |
| AwsTextExtract.GetTextUnknownChildFails | quickfill/ocr/aws_text_extract.py:99 | a `CHILD` id missing from `block_map` makes `get_text` fail |
| AwsTextExtract.GetTextJoinsWords | quickfill/ocr/aws_text_extract.py:101-105 | when no word has surrounding whitespace, the text is the words joined by single spaces |
| AwsTextExtract.RelsWordsOnlyChild | quickfill/ocr/aws_text_extract.py:97 | keeping only the `CHILD` relationships gives the same words |
| AwsTextExtract.GetTextOnlyChildRelationships | quickfill/ocr/aws_text_extract.py:95-97 | dropping every relationship that is not `CHILD` does not change a block's text |
| AwsTextExtract.ExtractKeyValuePairs | quickfill/ocr/aws_text_extract.py:52-82 | the method returns the two dicts that the iterations over `key_map` build, or the first error |
| AwsTextExtract.DictsOfSnoc | quickfill/ocr/aws_text_extract.py:72-79 | one more iteration assigns its key in both dicts: the value text in one, the box with an empty `Value` in the other |
| AwsTextExtract.PairOfMeaning | quickfill/ocr/aws_text_extract.py:69-79 | an iteration completes if and only if the key block has a value block and both texts can be computed; it records the key text, the value text and the value block's bounding box |
| AwsTextExtract.PairsFromAt | quickfill/ocr/aws_text_extract.py:68-72 | the iterations follow `key_map` order: the i-th result is that of the i-th key block |
| AwsTextExtract.PairsFromFirstError | quickfill/ocr/aws_text_extract.py:68-71 | the first key block whose iteration fails decides the error of the extraction |
| AwsTextExtract.DictsKeys | quickfill/ocr/aws_text_extract.py:72-79 | both dicts have the same keys, which are exactly the key texts of the iterations |
| AwsTextExtract.DictsLastWriter | quickfill/ocr/aws_text_extract.py:72-79 | a key's value text and box come from the last iteration with that key text |
| AwsTextExtract.DictsBoxShape | quickfill/ocr/aws_text_extract.py:76-79 | every entry of `key_value_pairs_obj` has exactly the fields `BoundingBox` and `Value`, and `Value` is empty |
| AwsTextExtract.KeyValuesLastWriter | quickfill/ocr/aws_text_extract.py:68-79 | on success there is one iteration per key block, and a reported key comes from the last key block, in `key_map` order, whose text it is |
| AwsTextExtract.KeyValuesNeedValueBlocks | quickfill/ocr/aws_text_extract.py:69-71 | a key block without a value block that `value_map` holds makes the extraction fail |
| AwsTextExtract.FindBlockById | quickfill/ocr/aws_text_extract.py:126-130 | the loop returns the first block with the id, or `None` |
| AwsTextExtract.BlockByIdIsFirst | quickfill/ocr/aws_text_extract.py:126-130 | `None` if and only if no block has the id; otherwise the first block with that id |
| AwsTextExtract.GetTextFromBlock | quickfill/ocr/aws_text_extract.py:132-142 | a cell's `Text` when it has one; otherwise a `NameError` on the first `CHILD` id, or `""` when there is none; a `None` cell fails |
| AwsTextExtract.ExtractRow | quickfill/ocr/aws_text_extract.py:117-122 | a row is the text of the block of each cell id, in order, or the first error |
| AwsTextExtract.ExtractTableContent | quickfill/ocr/aws_text_extract.py:110-124 | the loops return one table per `TABLE` block with one row per `CHILD` relationship, or the first error |
| AwsTextExtract.RowShape | quickfill/ocr/aws_text_extract.py:117-122 | a row has one cell per id, and the k-th cell is the text of the block with the k-th id |
| AwsTextExtract.RowsShape | quickfill/ocr/aws_text_extract.py:115-122 | a table has one row per `CHILD` relationship, in order |
| AwsTextExtract.TablesShape | quickfill/ocr/aws_text_extract.py:110-124 | the result has one table per `TABLE` block, in order |
| AwsTextExtract.RowsFromFails | quickfill/ocr/aws_text_extract.py:115-122 | a `CHILD` relationship whose row fails makes the table fail |
| AwsTextExtract.TablesFromFails | quickfill/ocr/aws_text_extract.py:112-123 | a `TABLE` block whose table fails makes the whole extraction fail |
| AwsTextExtract.CellWithWordsFails | quickfill/ocr/aws_text_extract.py:119-141 | a cell without `Text` that has a `CHILD` id makes the table extraction fail |
| AwsTextExtract.ApiAnalyzeDocument | quickfill/ocr/aws_text_extract.py:159-181 | each return type gives the raw response, the plain text, the key-value dicts or the tables of the response's blocks, and otherwise passes on their error |
| FormFilling.FlattenKeys | quickfill/quickfill/ai/form_filling.py:8-16 | the recursive loop returns the dict of every assignment flattening makes, later ones winning |
| FormFilling.FlatStep | quickfill/quickfill/ai/form_filling.py:10-15 | one entry merges a nested dict's flattening, or assigns a leaf under its new key, and later entries override it |
| FormFilling.FlatWritesAreKeyedLeaves | quickfill/quickfill/ai/form_filling.py:8-16 | flattening assigns every leaf, in visiting order, under the key of its path |
| FormFilling.LeavesAreLeaves | quickfill/quickfill/ai/form_filling.py:12-15 | no leaf is a dict, and every leaf has a non-empty path |
| FormFilling.KeyOfBelow | quickfill/quickfill/ai/form_filling.py:11 | below a non-empty parent key, a path's key is the parent, the separator and the path joined by the separator |
| FormFilling.KeyOfIsJoin | quickfill/quickfill/ai/form_filling.py:11 | at the top level, a path's key is the path joined by the separator, provided its first key is not empty |
| FormFilling.KeyOfAtMostJoin | quickfill/quickfill/ai/form_filling.py:11 | a path's top-level key is never longer than its segments joined by the separator |
| FormFilling.KeyOfIsJoinExactly | quickfill/quickfill/ai/form_filling.py:11 | with a non-empty separator, a path's top-level key is its segments joined by the separator if and only if the path has at most one segment or its first segment is not empty |
| FormFilling.EmptyKeySwallowed | quickfill/quickfill/ai/form_filling.py:11 | `{"": {"b": v}}` flattens to `{"b": v}`, not to the `$$`-joined path `$$b` |
| FormFilling.FlattenedKeys | quickfill/quickfill/ai/form_filling.py:8-16 | the flattened keys are exactly the keys of the leaf paths |
| FormFilling.FlattenedHasNoDicts | quickfill/quickfill/ai/form_filling.py:12-15 | no flattened value is a dict |
| FormFilling.FlattenedLeaf | quickfill/quickfill/ai/form_filling.py:8-16 | a leaf at path `k1, ..., kn` appears under `k1$$...$$kn` with its own value, unless a later leaf gets the same key |
| FormFilling.FlattenedSize | quickfill/quickfill/ai/form_filling.py:8-16 | there are never more flattened keys than leaves |
| FormFilling.FlattenedSizeDistinct | quickfill/quickfill/ai/form_filling.py:8-16 | when the leaf paths have pairwise distinct keys there is exactly one flattened key per leaf, so keys are lost only when paths collide |
| FormFilling.FlatDictUnchanged | quickfill/quickfill/ai/form_filling.py:14-15 | a dict without nested dicts is assigned entry by entry under its own keys |
| FormFilling.EmptyDictsContributeNothing | quickfill/quickfill/ai/form_filling.py:12-13 | entries whose values are all `{}` produce no keys |
| FormFilling.TestTargetFlattensToNothing | quickfill/quickfill/ai/form_filling.py:64-68 | the test's target `{"name": {}, "height": {}, "hair_color": {}}` flattens to `{}` |
| FormFilling.SchemaFor | quickfill/quickfill/ai/form_filling.py:19-27 | in auto mode every property is `{"type": "string"}` and nothing is required |
| FormFilling.AutoSchemaProperties | quickfill/quickfill/ai/form_filling.py:19-27 | the auto schema has exactly one property per flattened leaf path of the target |
| AiFormFilling.NestedDict.UpdateNestedDict | quickfill/quickfill/ai/ai_form_filling.py:113-116 | after the loop the dict is `Filled`: each updated key that has a `Value` field holds the last value given for it, and nothing else changes |
| AiFormFilling.FilledSnoc | quickfill/quickfill/ai/ai_form_filling.py:114-116 | one more update replaces the `Value` of its key's entry when the entry exists and has that field, and otherwise changes nothing |
| AiFormFilling.FilledFrame | quickfill/quickfill/ai/ai_form_filling.py:115-116 | the keys of the dict and of each entry are kept; an entry without `Value` or whose key is not updated is unchanged; fields other than `Value` are unchanged |
| AiFormFilling.FilledTakesAnswer | quickfill/quickfill/ai/ai_form_filling.py:114-116 | an update of a present entry with a `Value` field, not repeated later, ends up in that field |
| AiFormFilling.FilledIdempotent | quickfill/quickfill/ai/ai_form_filling.py:113-116 | applying the same updates twice gives the same dict as applying them once |
| AiFormFilling.FillExtractedBoxes | quickfill/quickfill/ai/ai_form_filling.py:113-116 | on the geometry dict of the key-value extraction, an answered key keeps its bounding box and gets the answer as its `Value` |

## Left out

- Calling Textract (`analyze_document`: boto3, AWS credentials, the response cache on disk) is not modelled. `ApiAnalyzeDocument` takes the response as a parameter.
- `quick_analyze_document` (file reading) and the `__main__` block are not modelled.
- The default `return_type` of `api_analyze_document` is not modelled; the caller always passes one.
- The `ValueError` branch of `api_analyze_document` cannot be reached: `ReturnType` has exactly the four members of `OCRReturnType`.
- Calls to the language model (`ChatOpenAI`, `create_extraction_chain`, the prompt templates) and the rest of `ai_form_filling.py` are not modelled: regular-expression JSON extraction, PDF and image handling, fonts and coordinate arithmetic.
- Printing (`print`, `json.dumps(schema, indent=4)`) is not modelled.
- `quickfill/quickfill/main.py`, `quickfill/quickfill/const.py` and `quickfill/ai/multimodal_form_filling.py` are not part of this model.
- The fields that Textract always sends are mandatory in the model, so the `KeyError` raised when one is absent is not modelled. These are the response's `Blocks` (quickfill/ocr/aws_text_extract.py:44, 173, 175), a block's `Id` and `BlockType` (lines 47, 60, 62, 113, 128), and a relationship's `Type` and `Ids` (lines 86-87, 97-98, 116-118, 138-139).
- Bounding boxes are opaque JSON values; their floating-point coordinates are never computed with.
- The iteration order of dicts built as Dafny maps is not modelled. This covers the result of `flatten_keys`, the schema's `properties`, the two dicts of `extract_key_value_pairs` and the dict after `update_nested_dict`. Only their contents are modelled. `key_map`'s order, which decides which key block wins, is modelled.
- A JSON object with the same key twice is kept as its list of entries, so `flatten_keys` visits it as the list; a Python dict would hold only the last entry.
- FormFilling.FlattenKeys: the model does not decide whether a value "is a dict" for anything other than a JSON object. Dict subclasses do not occur in parsed JSON.
- AiFormFilling.NestedDict.UpdateNestedDict: every entry of the dict is itself a dict, because every caller passes the geometry dict built by `extract_key_value_pairs`. The substring test that `'Value' in` performs on a string entry, and the `TypeError` its assignment would then raise, are not modelled.
- AiFormFilling.NestedDict.UpdateNestedDict: aliasing is not modelled. In Python the inner dicts of `main_dict` are shared with the caller's other references; here `entries` is a map of values.
- AwsTextExtract.PairOf: the branch where the value block is `None` after both texts were computed cannot occur (`get_text(None)` raises first). It is given an error so that the function is total.

=== FILE: ai_form_filling.dfy ===
/** update_nested_dict (quickfill/quickfill/ai/ai_form_filling.py): writing the answers of
    the language model into the `Value` field of the entries of a dict of dicts, such as the
    geometry dict the key-value extraction builds. */
module AiFormFilling {
  import opened JsonValue
  import opened PyDict
  import AwsTextExtract

  /** The field of an entry that receives an answer. */
  const ValueField: string := "Value"

  /** What the dict holds after the updates: an entry whose key was updated and that has a
      `Value` field gets the last value given for its key; every other entry, and every other
      field, is as before. */
  function Filled(main: map<string, map<string, Json>>, updates: seq<(string, Json)>): map<string, map<string, Json>>
  {
    var answers := LastWins(updates);
    map k | k in main :: if k in answers && ValueField in main[k] then main[k][ValueField := answers[k]] else main[k]
  }

  /** One iteration of the loop: the entry of the new key, if present and holding a `Value`
      field, has that field replaced. */
  lemma {:induction false} FilledSnoc(main: map<string, map<string, Json>>, updates: seq<(string, Json)>, k: string, v: Json)
    ensures Filled(main, updates + [(k, v)])
         == var m := Filled(main, updates);
            if k in m && ValueField in m[k] then m[k := m[k][ValueField := v]] else m
  {
    LastWinsSnoc(updates, k, v);
    var m := Filled(main, updates);
    var stepped := if k in m && ValueField in m[k] then m[k := m[k][ValueField := v]] else m;
    forall key | key in main
      ensures Filled(main, updates + [(k, v)])[key] == stepped[key]
    {
      if key == k && ValueField in main[k] {
        assert m[k][ValueField := v] == main[k][ValueField := v];
      }
    }
  }

  class NestedDict {
    /** The dict of dicts, keyed like the form fields. */
    var entries: map<string, map<string, Json>>

    constructor(entries0: map<string, map<string, Json>>)
      ensures entries == entries0
    {
      entries := entries0;
    }

    method UpdateNestedDict(updates: seq<(string, Json)>)
      modifies this
      ensures entries == Filled(old(entries), updates)
    {
      var i := 0;
      assert updates[..0] == [];
      while i < |updates|
        invariant 0 <= i <= |updates|
        invariant entries == Filled(old(entries), updates[..i])
      {
        var key := updates[i].0;
        var value := updates[i].1;
        FilledSnoc(old(entries), updates[..i], key, value);
        assert updates[..i + 1] == updates[..i] + [(key, value)];
        if key in entries && ValueField in entries[key] {
          entries := entries[key := entries[key][ValueField := value]];
        }
        i := i + 1;
      }
      assert updates[..i] == updates;
    }
  }

  /** The keys of the dict and of each entry are unchanged; an entry without a `Value` field,
      or whose key is not updated, is unchanged; only the `Value` field of an entry changes. */
  lemma {:induction false} FilledFrame(main: map<string, map<string, Json>>, updates: seq<(string, Json)>, k: string)
    requires k in main
    ensures Filled(main, updates).Keys == main.Keys
    ensures Filled(main, updates)[k].Keys == main[k].Keys
    ensures ValueField !in main[k] || k !in Assigned(updates) ==> Filled(main, updates)[k] == main[k]
    ensures forall f :: f in main[k] && f != ValueField ==> Filled(main, updates)[k][f] == main[k][f]
  {
    LastWinsKeys(updates);
  }

  /** An update whose key is present with a `Value` field, and is not given again later,
      ends up in that field. */
  lemma {:induction false} FilledTakesAnswer(main: map<string, map<string, Json>>, updates: seq<(string, Json)>, i: nat)
    requires i < |updates| && updates[i].0 in main && ValueField in main[updates[i].0]
    requires forall j :: i < j < |updates| ==> updates[j].0 != updates[i].0
    ensures Filled(main, updates)[updates[i].0][ValueField] == updates[i].1
  {
    LastWinsLast(updates, i);
  }

  /** Applying the same updates twice changes nothing more. */
  lemma {:induction false} FilledIdempotent(main: map<string, map<string, Json>>, updates: seq<(string, Json)>)
    ensures Filled(Filled(main, updates), updates) == Filled(main, updates)
  {
    var once := Filled(main, updates);
    forall k | k in once
      ensures Filled(once, updates)[k] == once[k]
    {
      var answers := LastWins(updates);
      if k in answers && ValueField in main[k] {
        assert once[k][ValueField := answers[k]] == once[k];
      }
    }
  }

  /** Filling the geometry dict of the key-value extraction: an extracted key that is
      answered keeps its bounding box and gets the answer as its value. */
  lemma {:induction false} FillExtractedBoxes(ps: seq<AwsTextExtract.Pair>, updates: seq<(string, Json)>, k: string)
    requires k in AwsTextExtract.DictsOf(ps).boxes && k in LastWins(updates)
    ensures Filled(AwsTextExtract.DictsOf(ps).boxes, updates)[k]
         == map["BoundingBox" := AwsTextExtract.DictsOf(ps).boxes[k]["BoundingBox"], ValueField := LastWins(updates)[k]]
  {
    var boxes := AwsTextExtract.DictsOf(ps).boxes;
    AwsTextExtract.DictsBoxShape(ps, k);
    assert boxes[k][ValueField := LastWins(updates)[k]]
        == map["BoundingBox" := boxes[k]["BoundingBox"], ValueField := LastWins(updates)[k]];
  }
}

=== FILE: aws_text_extract.dfy ===
/** Extraction of plain text, key-value pairs and tables from a Textract response
    (quickfill/ocr/aws_text_extract.py), over a response that has already been obtained. */
module AwsTextExtract {
  import opened Results
  import opened JsonValue
  import opened PyStr
  import opened PyDict
  import opened TextractTypes

  // ---------------------------------------------------------------------------
  // Plain text: get_text_from_response
  // ---------------------------------------------------------------------------

  /** What one block adds to the plain text: `Text` and a newline for a `LINE`, nothing otherwise. */
  function LineText(b: Block): Result<string, Fault>
  {
    if b.blockType != LINE then Ok("")
    else if b.text.None? then Err(MissingField(b.id, "Text"))
    else Ok(b.text.value + "\n")
  }

  /** The plain text of `blocks`, the first `LINE` without `Text` raising. */
  function LinesText(blocks: seq<Block>): Result<string, Fault>
  {
    if blocks == [] then Ok("") else Then(LineText(blocks[0]), LinesText(blocks[1..]))
  }

  /** Only the `LINE` blocks, in order. */
  function Lines(blocks: seq<Block>): seq<Block>
  {
    if blocks == [] then []
    else (if blocks[0].blockType == LINE then [blocks[0]] else []) + Lines(blocks[1..])
  }

  method GetTextFromResponse(response: Response) returns (r: Result<string, Fault>)
    ensures r == LinesText(response.blocks)
  {
    var blocks := response.blocks;
    var text := "";
    var i := 0;
    assert blocks[0..] == blocks;
    PrefixedEmpty(LinesText(blocks));
    while i < |blocks|
      invariant 0 <= i <= |blocks|
      invariant LinesText(blocks) == Prefixed(text, LinesText(blocks[i..]))
    {
      var block := blocks[i];
      assert blocks[i..][0] == block && blocks[i..][1..] == blocks[i + 1..];
      assert LinesText(blocks[i..]) == Then(LineText(block), LinesText(blocks[i + 1..]));
      if block.blockType == LINE {
        if block.text.None? {
          return Err(MissingField(block.id, "Text"));
        }
        PrefixedTwice(text, block.text.value + "\n", LinesText(blocks[i + 1..]));
        assert text + (block.text.value + "\n") == text + block.text.value + "\n";
        text := text + block.text.value + "\n";
      } else {
        PrefixedTwice(text, "", LinesText(blocks[i + 1..]));
        assert text + "" == text;
      }
      i := i + 1;
    }
    assert blocks[i..] == [];
    assert text + "" == text;
    return Ok(text);
  }

  /** The text of a concatenation is the text of each part, concatenated (or the first error). */
  lemma {:induction false} LinesTextAppend(a: seq<Block>, b: seq<Block>)
    ensures LinesText(a + b) == Then(LinesText(a), LinesText(b))
  {
    if a == [] {
      assert a + b == b;
      if LinesText(b).Ok? { assert "" + LinesText(b).value == LinesText(b).value; }
    } else {
      assert (a + b)[0] == a[0] && (a + b)[1..] == a[1..] + b;
      LinesTextAppend(a[1..], b);
      ThenAssoc(LineText(a[0]), LinesText(a[1..]), LinesText(b));
    }
  }

  /** Blocks of any other type contribute nothing: only the `LINE` blocks matter. */
  lemma {:induction false} LinesTextOnlyLines(blocks: seq<Block>)
    ensures LinesText(blocks) == LinesText(Lines(blocks))
  {
    if blocks != [] {
      LinesTextOnlyLines(blocks[1..]);
      if blocks[0].blockType == LINE {
        var l := Lines(blocks);
        assert l[0] == blocks[0] && l[1..] == Lines(blocks[1..]);
      } else {
        assert Lines(blocks) == Lines(blocks[1..]);
        if LinesText(blocks[1..]).Ok? { assert "" + LinesText(blocks[1..]).value == LinesText(blocks[1..]).value; }
      }
    }
  }

  /** The plain text fails exactly when some `LINE` block has no `Text`. */
  lemma {:induction false} LinesTextFails(blocks: seq<Block>)
    ensures LinesText(blocks).Err?
        <==> exists i :: 0 <= i < |blocks| && blocks[i].blockType == LINE && blocks[i].text.None?
  {
    if blocks != [] {
      LinesTextFails(blocks[1..]);
      if exists i :: 0 <= i < |blocks[1..]| && blocks[1..][i].blockType == LINE && blocks[1..][i].text.None? {
        var i :| 0 <= i < |blocks[1..]| && blocks[1..][i].blockType == LINE && blocks[1..][i].text.None?;
        assert blocks[i + 1] == blocks[1..][i];
      }
      if exists i :: 0 <= i < |blocks| && blocks[i].blockType == LINE && blocks[i].text.None? {
        var i :| 0 <= i < |blocks| && blocks[i].blockType == LINE && blocks[i].text.None?;
        if i > 0 { assert blocks[1..][i - 1] == blocks[i]; }
      }
    }
  }

  /** A single `LINE` block with text yields exactly its text and one newline. */
  lemma {:induction false} LinesTextOfLine(b: Block)
    requires b.blockType == LINE && b.text.Some?
    ensures LinesText([b]) == Ok(b.text.value + "\n")
  {
    assert [b][1..] == [];
    assert b.text.value + "\n" + "" == b.text.value + "\n";
  }

  // ---------------------------------------------------------------------------
  // Indexing the blocks: the first loop of extract_key_value_pairs
  // ---------------------------------------------------------------------------

  /** Which of the three dicts of the first loop a block is assigned into. */
  datatype BlockKind = AnyBlock | KeyBlock | ValueBlock

  predicate OfKind(b: Block, kind: BlockKind)
  {
    match kind
    case AnyBlock => true
    case KeyBlock => b.blockType == KEY_VALUE_SET && b.entityTypes.Some? && KEY in b.entityTypes.value
    case ValueBlock => b.blockType == KEY_VALUE_SET && b.entityTypes.Some? && KEY !in b.entityTypes.value
  }

  /** The assignments `d[block['Id']] = block` made into the dict for `kind`, in order. */
  function Entries(blocks: seq<Block>, kind: BlockKind): seq<(string, Block)>
  {
    if blocks == [] then []
    else
      var b := blocks[|blocks| - 1];
      Entries(blocks[..|blocks| - 1], kind) + (if OfKind(b, kind) then [(b.id, b)] else [])
  }

  /** The id of the first `KEY_VALUE_SET` block without `EntityTypes`, on which indexing raises. */
  function FirstWithoutEntityTypes(blocks: seq<Block>): Option<string>
  {
    if blocks == [] then None
    else if blocks[0].blockType == KEY_VALUE_SET && blocks[0].entityTypes.None? then Some(blocks[0].id)
    else FirstWithoutEntityTypes(blocks[1..])
  }

  /** `block_map`, `key_map` (with its iteration order) and `value_map`. */
  datatype BlockIndex = BlockIndex(
    blockMap: map<string, Block>,
    keyOrder: seq<string>,
    keyMap: map<string, Block>,
    valueMap: map<string, Block>)

  function IndexOf(blocks: seq<Block>): (r: Result<BlockIndex, Fault>)
    ensures r.Ok? ==> Distinct(r.value.keyOrder)
                      && forall id :: id in r.value.keyOrder <==> id in r.value.keyMap
  {
    match FirstWithoutEntityTypes(blocks)
    case Some(id) => Err(MissingField(id, "EntityTypes"))
    case None =>
      InsertionOrderKeys(Entries(blocks, KeyBlock));
      Ok(BlockIndex(
        LastWins(Entries(blocks, AnyBlock)),
        InsertionOrder(Entries(blocks, KeyBlock)),
        LastWins(Entries(blocks, KeyBlock)),
        LastWins(Entries(blocks, ValueBlock))))
  }

  lemma {:induction false} EntriesSnoc(blocks: seq<Block>, i: nat, kind: BlockKind)
    requires i < |blocks|
    ensures Entries(blocks[..i + 1], kind)
         == Entries(blocks[..i], kind) + (if OfKind(blocks[i], kind) then [(blocks[i].id, blocks[i])] else [])
  {
    assert blocks[..i + 1][..i] == blocks[..i];
  }

  /** How one more block changes each dict of the first loop, and `key_map`'s order. */
  lemma {:induction false} IndexStep(blocks: seq<Block>, i: nat)
    requires i < |blocks|
    ensures forall kind :: LastWins(Entries(blocks[..i + 1], kind))
              == if OfKind(blocks[i], kind) then LastWins(Entries(blocks[..i], kind))[blocks[i].id := blocks[i]]
                 else LastWins(Entries(blocks[..i], kind))
    ensures InsertionOrder(Entries(blocks[..i + 1], KeyBlock))
              == if !OfKind(blocks[i], KeyBlock) then InsertionOrder(Entries(blocks[..i], KeyBlock))
                 else if blocks[i].id in LastWins(Entries(blocks[..i], KeyBlock))
                 then InsertionOrder(Entries(blocks[..i], KeyBlock))
                 else InsertionOrder(Entries(blocks[..i], KeyBlock)) + [blocks[i].id]
  {
    var b := blocks[i];
    forall kind ensures LastWins(Entries(blocks[..i + 1], kind))
              == if OfKind(b, kind) then LastWins(Entries(blocks[..i], kind))[b.id := b]
                 else LastWins(Entries(blocks[..i], kind))
    {
      EntriesSnoc(blocks, i, kind);
      if OfKind(b, kind) {
        LastWinsSnoc(Entries(blocks[..i], kind), b.id, b);
      } else {
        assert Entries(blocks[..i + 1], kind) == Entries(blocks[..i], kind);
      }
    }
    EntriesSnoc(blocks, i, KeyBlock);
    if OfKind(b, KeyBlock) {
      InsertionOrderKeys(Entries(blocks[..i], KeyBlock));
      InsertionOrderSnoc(Entries(blocks[..i], KeyBlock), b.id, b);
    } else {
      assert Entries(blocks[..i + 1], KeyBlock) == Entries(blocks[..i], KeyBlock);
    }
  }

  method IndexBlocks(blocks: seq<Block>) returns (r: Result<BlockIndex, Fault>)
    ensures r == IndexOf(blocks)
  {
    var blockMap: map<string, Block> := map[];
    var keyOrder: seq<string> := [];
    var keyMap: map<string, Block> := map[];
    var valueMap: map<string, Block> := map[];
    var i := 0;
    assert blocks[0..] == blocks;
    while i < |blocks|
      invariant 0 <= i <= |blocks|
      invariant FirstWithoutEntityTypes(blocks) == FirstWithoutEntityTypes(blocks[i..])
      invariant blockMap == LastWins(Entries(blocks[..i], AnyBlock))
      invariant keyMap == LastWins(Entries(blocks[..i], KeyBlock))
      invariant keyOrder == InsertionOrder(Entries(blocks[..i], KeyBlock))
      invariant valueMap == LastWins(Entries(blocks[..i], ValueBlock))
    {
      var block := blocks[i];
      assert blocks[i..][0] == block && blocks[i..][1..] == blocks[i + 1..];
      IndexStep(blocks, i);
      blockMap := blockMap[block.id := block];
      if block.blockType == KEY_VALUE_SET {
        if block.entityTypes.None? {
          return Err(MissingField(block.id, "EntityTypes"));
        }
        if KEY in block.entityTypes.value {
          if block.id !in keyMap {
            keyOrder := keyOrder + [block.id];
          }
          keyMap := keyMap[block.id := block];
        } else {
          valueMap := valueMap[block.id := block];
        }
      }
      i := i + 1;
    }
    assert blocks[..i] == blocks;
    return Ok(BlockIndex(blockMap, keyOrder, keyMap, valueMap));
  }

  /** The assignments into the dict for `kind` are exactly those of the blocks of that kind. */
  lemma {:induction false} EntriesMembers(blocks: seq<Block>, kind: BlockKind)
    ensures forall p :: p in Entries(blocks, kind)
                <==> exists i :: 0 <= i < |blocks| && OfKind(blocks[i], kind) && p == (blocks[i].id, blocks[i])
  {
    if blocks != [] {
      var n := |blocks| - 1;
      EntriesMembers(blocks[..n], kind);
      forall p | p in Entries(blocks, kind)
        ensures exists i :: 0 <= i < |blocks| && OfKind(blocks[i], kind) && p == (blocks[i].id, blocks[i])
      {
        if p in Entries(blocks[..n], kind) {
          var i :| 0 <= i < n && OfKind(blocks[..n][i], kind) && p == (blocks[..n][i].id, blocks[..n][i]);
          assert blocks[..n][i] == blocks[i];
        }
      }
      forall i | 0 <= i < |blocks| && OfKind(blocks[i], kind)
        ensures (blocks[i].id, blocks[i]) in Entries(blocks, kind)
      {
        if i < n {
          assert blocks[..n][i] == blocks[i];
        }
      }
    }
  }

  /** The keys of a dict of the first loop are the ids of the blocks of its kind. */
  lemma {:induction false} IndexKeys(blocks: seq<Block>, kind: BlockKind)
    ensures forall id :: id in LastWins(Entries(blocks, kind))
                <==> exists i :: 0 <= i < |blocks| && OfKind(blocks[i], kind) && blocks[i].id == id
    ensures forall id :: id in LastWins(Entries(blocks, kind))
                ==> var b := LastWins(Entries(blocks, kind))[id];
                    b.id == id && OfKind(b, kind) && b in blocks
  {
    EntriesMembers(blocks, kind);
    LastWinsKeys(Entries(blocks, kind));
    forall id | id in LastWins(Entries(blocks, kind))
      ensures var b := LastWins(Entries(blocks, kind))[id]; b.id == id && OfKind(b, kind) && b in blocks
    {
      var kvs := Entries(blocks, kind);
      LastWinsSource(kvs, id);
      var j :| 0 <= j < |kvs| && kvs[j].0 == id && LastWins(kvs)[id] == kvs[j].1;
      assert kvs[j] in kvs;
    }
    forall id | exists i :: 0 <= i < |blocks| && OfKind(blocks[i], kind) && blocks[i].id == id
      ensures id in Assigned(Entries(blocks, kind))
    {
      var i :| 0 <= i < |blocks| && OfKind(blocks[i], kind) && blocks[i].id == id;
      var kvs := Entries(blocks, kind);
      assert (blocks[i].id, blocks[i]) in kvs;
      var j :| 0 <= j < |kvs| && kvs[j] == (blocks[i].id, blocks[i]);
      assert kvs[j].0 == id;
    }
  }

  /** Every block lands in `block_map` under its `Id`; `key_map` holds only key blocks and
      `value_map` only value blocks, each under its own `Id`. */
  lemma {:induction false} IndexHoldsBlocks(blocks: seq<Block>, ix: BlockIndex)
    requires IndexOf(blocks) == Ok(ix)
    ensures forall i :: 0 <= i < |blocks| ==> blocks[i].id in ix.blockMap
    ensures forall id :: id in ix.blockMap ==> ix.blockMap[id].id == id && ix.blockMap[id] in blocks
    ensures forall id :: id in ix.keyMap ==> ix.keyMap[id].id == id && OfKind(ix.keyMap[id], KeyBlock)
    ensures forall id :: id in ix.valueMap ==> ix.valueMap[id].id == id && OfKind(ix.valueMap[id], ValueBlock)
    ensures ix.keyMap.Keys + ix.valueMap.Keys <= ix.blockMap.Keys
  {
    IndexKeys(blocks, AnyBlock);
    IndexKeys(blocks, KeyBlock);
    IndexKeys(blocks, ValueBlock);
    forall id | id in ix.keyMap ensures id in ix.blockMap {
      assert id in LastWins(Entries(blocks, KeyBlock));
      var i :| 0 <= i < |blocks| && OfKind(blocks[i], KeyBlock) && blocks[i].id == id;
      assert OfKind(blocks[i], AnyBlock);
    }
    forall id | id in ix.valueMap ensures id in ix.blockMap {
      var i :| 0 <= i < |blocks| && OfKind(blocks[i], ValueBlock) && blocks[i].id == id;
      assert OfKind(blocks[i], AnyBlock);
    }
  }

  ghost predicate DistinctIds(blocks: seq<Block>)
  {
    forall i, j :: 0 <= i < j < |blocks| ==> blocks[i].id != blocks[j].id
  }

  /** With distinct ids (as Textract issues them) a `KEY_VALUE_SET` block goes to `key_map`
      iff `KEY` is among its entity types and to `value_map` otherwise; no other block goes
      to either; the two are disjoint and `block_map` maps each id to its block. */
  lemma {:induction false} IndexPartition(blocks: seq<Block>, ix: BlockIndex)
    requires IndexOf(blocks) == Ok(ix) && DistinctIds(blocks)
    ensures forall i :: 0 <= i < |blocks| ==> blocks[i].id in ix.blockMap && ix.blockMap[blocks[i].id] == blocks[i]
    ensures forall i :: 0 <= i < |blocks| ==> (blocks[i].id in ix.keyMap <==> OfKind(blocks[i], KeyBlock))
    ensures forall i :: 0 <= i < |blocks| ==> (blocks[i].id in ix.valueMap <==> OfKind(blocks[i], ValueBlock))
    ensures ix.keyMap.Keys !! ix.valueMap.Keys
  {
    IndexHoldsBlocks(blocks, ix);
    IndexKeys(blocks, KeyBlock);
    IndexKeys(blocks, ValueBlock);
    forall i | 0 <= i < |blocks| ensures ix.blockMap[blocks[i].id] == blocks[i] {
      var b := ix.blockMap[blocks[i].id];
      var j :| 0 <= j < |blocks| && blocks[j] == b;
      assert blocks[j].id == blocks[i].id;
      assert i == j;
    }
    forall i | 0 <= i < |blocks| && blocks[i].id in ix.keyMap ensures OfKind(blocks[i], KeyBlock) {
      var j :| 0 <= j < |blocks| && OfKind(blocks[j], KeyBlock) && blocks[j].id == blocks[i].id;
      assert i == j;
    }
    forall i | 0 <= i < |blocks| && blocks[i].id in ix.valueMap ensures OfKind(blocks[i], ValueBlock) {
      var j :| 0 <= j < |blocks| && OfKind(blocks[j], ValueBlock) && blocks[j].id == blocks[i].id;
      assert i == j;
    }
  }

  /** Indexing raises exactly when some `KEY_VALUE_SET` block has no `EntityTypes`. */
  lemma {:induction false} IndexFails(blocks: seq<Block>)
    ensures IndexOf(blocks).Err?
        <==> exists i :: 0 <= i < |blocks| && blocks[i].blockType == KEY_VALUE_SET && blocks[i].entityTypes.None?
  {
    FirstWithoutEntityTypesSpec(blocks);
  }

  lemma {:induction false} FirstWithoutEntityTypesSpec(blocks: seq<Block>)
    ensures FirstWithoutEntityTypes(blocks).None?
        <==> forall i :: 0 <= i < |blocks| ==> !(blocks[i].blockType == KEY_VALUE_SET && blocks[i].entityTypes.None?)
  {
    if blocks != [] {
      FirstWithoutEntityTypesSpec(blocks[1..]);
      forall i | 1 <= i < |blocks| ensures blocks[i] == blocks[1..][i - 1] { }
    }
  }

  // ---------------------------------------------------------------------------
  // find_value_block
  // ---------------------------------------------------------------------------

  /** The block of the first id in `ids` that `valueMap` holds. */
  function FirstHeld(ids: seq<string>, valueMap: map<string, Block>): Option<Block>
  {
    if ids == [] then None
    else if ids[0] in valueMap then Some(valueMap[ids[0]])
    else FirstHeld(ids[1..], valueMap)
  }

  /** The value block of a key block: the first `VALUE` id that `value_map` holds, or `None`;
      a key block without `Relationships` raises. */
  function ValueBlockOf(keyBlock: Block, valueMap: map<string, Block>): Result<Option<Block>, Fault>
  {
    if keyBlock.relationships.None? then Err(MissingField(keyBlock.id, "Relationships"))
    else Ok(FirstHeld(IdsOfType(keyBlock.relationships.value, VALUE), valueMap))
  }

  method FindValueBlock(keyBlock: Block, valueMap: map<string, Block>) returns (r: Result<Option<Block>, Fault>)
    ensures r == ValueBlockOf(keyBlock, valueMap)
  {
    if keyBlock.relationships.None? {
      return Err(MissingField(keyBlock.id, "Relationships"));
    }
    var rels := keyBlock.relationships.value;
    var i := 0;
    assert rels[0..] == rels;
    while i < |rels|
      invariant 0 <= i <= |rels|
      invariant FirstHeld(IdsOfType(rels, VALUE), valueMap) == FirstHeld(IdsOfType(rels[i..], VALUE), valueMap)
    {
      var rel := rels[i];
      assert rels[i..][0] == rel && rels[i..][1..] == rels[i + 1..];
      if rel.relType == VALUE {
        var j := 0;
        assert rel.ids[0..] == rel.ids;
        while j < |rel.ids|
          invariant 0 <= j <= |rel.ids|
          invariant FirstHeld(IdsOfType(rels, VALUE), valueMap)
                 == FirstHeld(rel.ids[j..] + IdsOfType(rels[i + 1..], VALUE), valueMap)
        {
          var valueId := rel.ids[j];
          var rest := rel.ids[j..] + IdsOfType(rels[i + 1..], VALUE);
          assert rest[0] == valueId && rest[1..] == rel.ids[j + 1..] + IdsOfType(rels[i + 1..], VALUE);
          if valueId in valueMap {
            return Ok(Some(valueMap[valueId]));
          }
          j := j + 1;
        }
        assert rel.ids[j..] + IdsOfType(rels[i + 1..], VALUE) == IdsOfType(rels[i + 1..], VALUE);
      } else {
        assert IdsOfType(rels[i..], VALUE) == IdsOfType(rels[i + 1..], VALUE);
      }
      i := i + 1;
    }
    return Ok(None);
  }

  /** `FirstHeld` finds the first held id: `None` exactly when no id is held, and otherwise the
      block of a held id before which no id is held. */
  lemma {:induction false} FirstHeldIsFirst(ids: seq<string>, valueMap: map<string, Block>)
    ensures FirstHeld(ids, valueMap).None? <==> forall k :: 0 <= k < |ids| ==> ids[k] !in valueMap
    ensures FirstHeld(ids, valueMap).Some? ==>
              exists k :: 0 <= k < |ids| && ids[k] in valueMap && FirstHeld(ids, valueMap).value == valueMap[ids[k]]
                          && forall k' :: 0 <= k' < k ==> ids[k'] !in valueMap
  {
    if ids != [] && ids[0] !in valueMap {
      FirstHeldIsFirst(ids[1..], valueMap);
      if FirstHeld(ids, valueMap).Some? {
        var k :| 0 <= k < |ids[1..]| && ids[1..][k] in valueMap
                 && FirstHeld(ids[1..], valueMap).value == valueMap[ids[1..][k]]
                 && forall k' :: 0 <= k' < k ==> ids[1..][k'] !in valueMap;
        assert ids[k + 1] == ids[1..][k];
        forall k' | 0 <= k' < k + 1 ensures ids[k'] !in valueMap {
          if k' > 0 { assert ids[k'] == ids[1..][k' - 1]; }
        }
      }
      forall k | 1 <= k < |ids| ensures ids[k] == ids[1..][k - 1] { }
    }
  }

  /** Only `VALUE` relationships are consulted: dropping all others changes nothing. */
  lemma {:induction false} ValueBlockOnlyValueRelationships(keyBlock: Block, valueMap: map<string, Block>)
    requires keyBlock.relationships.Some?
    ensures ValueBlockOf(keyBlock.(relationships := Some(OfType(keyBlock.relationships.value, VALUE))), valueMap)
         == ValueBlockOf(keyBlock, valueMap)
  {
    IdsOfTypeOnlyType(keyBlock.relationships.value, VALUE);
  }

  // ---------------------------------------------------------------------------
  // get_text
  // ---------------------------------------------------------------------------

  /** What one `CHILD` id adds to a block's text: a `WORD`'s `Text`, `X` for a `SELECTED`
      selection element, nothing for anything else; an id `block_map` lacks raises. */
  function ChildWords(id: string, blockMap: map<string, Block>): Result<seq<string>, Fault>
  {
    if id !in blockMap then Err(UnknownId(id))
    else
      var w := blockMap[id];
      if w.blockType == WORD then
        (if w.text.None? then Err(MissingField(id, "Text")) else Ok([w.text.value]))
      else if w.blockType == SELECTION_ELEMENT then
        (if w.selectionStatus.None? then Err(MissingField(id, "SelectionStatus"))
         else if w.selectionStatus.value == SELECTED then Ok(["X"])
         else Ok([]))
      else Ok([])
  }

  function IdsWords(ids: seq<string>, blockMap: map<string, Block>): Result<seq<string>, Fault>
  {
    if ids == [] then Ok([]) else Then(ChildWords(ids[0], blockMap), IdsWords(ids[1..], blockMap))
  }

  function RelsWords(rels: seq<Relationship>, blockMap: map<string, Block>): Result<seq<string>, Fault>
  {
    if rels == [] then Ok([])
    else Then(if rels[0].relType == CHILD then IdsWords(rels[0].ids, blockMap) else Ok([]),
              RelsWords(rels[1..], blockMap))
  }

  /** The text of a block (`get_text`): its words with a space after each, stripped. A block
      without `Relationships` has the empty text; `None` in place of a block raises. */
  function TextOf(block: Option<Block>, blockMap: map<string, Block>): Result<string, Fault>
  {
    match block
    case None => Err(NotABlock)
    case Some(b) =>
      if b.relationships.None? then Ok("")
      else
        match RelsWords(b.relationships.value, blockMap)
        case Err(e) => Err(e)
        case Ok(words) => Ok(Strip(Spaced(words)))
  }

  method GetText(block: Option<Block>, blockMap: map<string, Block>) returns (r: Result<string, Fault>)
    ensures r == TextOf(block, blockMap)
  {
    if block.None? {
      return Err(NotABlock);
    }
    var b := block.value;
    var text := "";
    ghost var words: seq<string> := [];
    if b.relationships.Some? {
      var rels := b.relationships.value;
      var i := 0;
      assert rels[0..] == rels;
      PrefixedEmpty(RelsWords(rels, blockMap));
      while i < |rels|
        invariant 0 <= i <= |rels|
        invariant text == Spaced(words)
        invariant RelsWords(rels, blockMap) == Prefixed(words, RelsWords(rels[i..], blockMap))
      {
        var rel := rels[i];
        assert rels[i..][0] == rel && rels[i..][1..] == rels[i + 1..];
        if rel.relType == CHILD {
          var j := 0;
          assert rel.ids[0..] == rel.ids;
          while j < |rel.ids|
            invariant 0 <= j <= |rel.ids|
            invariant text == Spaced(words)
            invariant RelsWords(rels, blockMap)
                   == Prefixed(words, Then(IdsWords(rel.ids[j..], blockMap), RelsWords(rels[i + 1..], blockMap)))
          {
            var childId := rel.ids[j];
            var later := Then(IdsWords(rel.ids[j + 1..], blockMap), RelsWords(rels[i + 1..], blockMap));
            assert rel.ids[j..][0] == childId && rel.ids[j..][1..] == rel.ids[j + 1..];
            ThenAssoc(ChildWords(childId, blockMap), IdsWords(rel.ids[j + 1..], blockMap), RelsWords(rels[i + 1..], blockMap));
            if childId !in blockMap {
              return Err(UnknownId(childId));
            }
            var word := blockMap[childId];
            if word.blockType == WORD {
              if word.text.None? {
                return Err(MissingField(childId, "Text"));
              }
              PrefixedTwice(words, [word.text.value], later);
              SpacedSnoc(words, word.text.value);
              text := text + word.text.value + " ";
              words := words + [word.text.value];
            } else if word.blockType == SELECTION_ELEMENT {
              if word.selectionStatus.None? {
                return Err(MissingField(childId, "SelectionStatus"));
              }
              if word.selectionStatus.value == SELECTED {
                PrefixedTwice(words, ["X"], later);
                SpacedSnoc(words, "X");
                text := text + "X ";
                words := words + ["X"];
              } else {
                PrefixedTwice(words, [], later);
                assert words + [] == words;
              }
            } else {
              PrefixedTwice(words, [], later);
              assert words + [] == words;
            }
            j := j + 1;
          }
          assert rel.ids[j..] == [];
          PrefixedEmpty(RelsWords(rels[i + 1..], blockMap));
        } else {
          PrefixedTwice(words, [], RelsWords(rels[i + 1..], blockMap));
          assert words + [] == words;
        }
        i := i + 1;
      }
      assert rels[i..] == [];
      assert words + [] == words;
    }
    return Ok(Strip(text));
  }

  /** What a child block contributes, read without error handling: the reference the
      text is compared with. */
  function WordOf(w: Block): seq<string>
  {
    if w.blockType == WORD && w.text.Some? then [w.text.value]
    else if w.blockType == SELECTION_ELEMENT && w.selectionStatus == Some(SELECTED) then ["X"]
    else []
  }

  function WordsOf(ids: seq<string>, blockMap: map<string, Block>): seq<string>
    requires forall id :: id in ids ==> id in blockMap
  {
    if ids == [] then [] else WordOf(blockMap[ids[0]]) + WordsOf(ids[1..], blockMap)
  }

  lemma {:induction false} WordsOfAppend(a: seq<string>, b: seq<string>, blockMap: map<string, Block>)
    requires forall id :: id in a + b ==> id in blockMap
    ensures WordsOf(a + b, blockMap) == WordsOf(a, blockMap) + WordsOf(b, blockMap)
  {
    if a == [] {
      assert a + b == b;
    } else {
      assert (a + b)[0] == a[0] && (a + b)[1..] == a[1..] + b;
      WordsOfAppend(a[1..], b, blockMap);
    }
  }

  lemma {:induction false} IdsWordsAreWords(ids: seq<string>, blockMap: map<string, Block>)
    requires IdsWords(ids, blockMap).Ok?
    ensures forall id :: id in ids ==> id in blockMap
    ensures IdsWords(ids, blockMap).value == WordsOf(ids, blockMap)
  {
    if ids != [] {
      IdsWordsAreWords(ids[1..], blockMap);
    }
  }

  /** When the text succeeds, its words are those of the `CHILD` ids in order: each `WORD`'s
      `Text`, `X` for each `SELECTED` element, nothing for the rest; every `CHILD` id is in
      `block_map`. */
  lemma {:induction false} RelsWordsAreWords(rels: seq<Relationship>, blockMap: map<string, Block>)
    requires RelsWords(rels, blockMap).Ok?
    ensures forall id :: id in IdsOfType(rels, CHILD) ==> id in blockMap
    ensures RelsWords(rels, blockMap).value == WordsOf(IdsOfType(rels, CHILD), blockMap)
  {
    if rels != [] {
      RelsWordsAreWords(rels[1..], blockMap);
      if rels[0].relType == CHILD {
        IdsWordsAreWords(rels[0].ids, blockMap);
        WordsOfAppend(rels[0].ids, IdsOfType(rels[1..], CHILD), blockMap);
      } else {
        assert IdsOfType(rels, CHILD) == IdsOfType(rels[1..], CHILD);
      }
    }
  }

  /** A `CHILD` id that `block_map` lacks makes `get_text` raise. */
  lemma {:induction false} GetTextUnknownChildFails(b: Block, blockMap: map<string, Block>, id: string)
    requires b.relationships.Some? && id in IdsOfType(b.relationships.value, CHILD) && id !in blockMap
    ensures TextOf(Some(b), blockMap).Err?
  {
    if RelsWords(b.relationships.value, blockMap).Ok? {
      RelsWordsAreWords(b.relationships.value, blockMap);
    }
  }

  /** When every word carries no surrounding whitespace, the text is the words joined by
      single spaces. */
  lemma {:induction false} GetTextJoinsWords(b: Block, blockMap: map<string, Block>)
    requires b.relationships.Some? && RelsWords(b.relationships.value, blockMap).Ok?
    requires forall w :: w in RelsWords(b.relationships.value, blockMap).value ==> Clean(w)
    ensures TextOf(Some(b), blockMap) == Ok(Join(RelsWords(b.relationships.value, blockMap).value, " "))
  {
    StripSpacedIsJoin(RelsWords(b.relationships.value, blockMap).value);
  }

  lemma {:induction false} RelsWordsOnlyChild(rels: seq<Relationship>, blockMap: map<string, Block>)
    ensures RelsWords(OfType(rels, CHILD), blockMap) == RelsWords(rels, blockMap)
  {
    if rels != [] {
      RelsWordsOnlyChild(rels[1..], blockMap);
      if rels[0].relType == CHILD {
        var o := OfType(rels, CHILD);
        assert o[0] == rels[0] && o[1..] == OfType(rels[1..], CHILD);
      } else {
        assert OfType(rels, CHILD) == OfType(rels[1..], CHILD);
        PrefixedEmpty(RelsWords(rels[1..], blockMap));
      }
    }
  }

  /** Only `CHILD` relationships are read: dropping all others leaves the text unchanged. */
  lemma {:induction false} GetTextOnlyChildRelationships(b: Block, blockMap: map<string, Block>)
    requires b.relationships.Some?
    ensures TextOf(Some(b.(relationships := Some(OfType(b.relationships.value, CHILD)))), blockMap)
         == TextOf(Some(b), blockMap)
  {
    RelsWordsOnlyChild(b.relationships.value, blockMap);
  }

  // ---------------------------------------------------------------------------
  // extract_key_value_pairs
  // ---------------------------------------------------------------------------

  /** One iteration of the second loop: the key's text, the value's text and the bounding
      box of the value block. */
  datatype Pair = Pair(key: string, value: string, box: Json)

  /** The bounding box of a value block, `{}` when it has no geometry or no box. */
  function Coordinates(valueBlock: Block): Json
  {
    match valueBlock.geometry
    case None => EmptyObject
    case Some(g) => if g.boundingBox.Some? then g.boundingBox.value else EmptyObject
  }

  /** The entry stored in `key_value_pairs_obj` for a key: its box and an empty `Value`. */
  function GeometryEntry(box: Json): map<string, Json>
  {
    map["BoundingBox" := box, "Value" := JString("")]
  }

  /** The iteration for one key block. The text of a missing value block raises before the
      `if value_block:` guard is reached, so every iteration that completes has a value
      block and records its box. */
  function PairOf(keyBlock: Block, ix: BlockIndex): Result<Pair, Fault>
  {
    match ValueBlockOf(keyBlock, ix.valueMap)
    case Err(e) => Err(e)
    case Ok(valueBlock) =>
      match TextOf(Some(keyBlock), ix.blockMap)
      case Err(e) => Err(e)
      case Ok(key) =>
        match TextOf(valueBlock, ix.blockMap)
        case Err(e) => Err(e)
        case Ok(value) =>
          match valueBlock
          case None => Err(NotABlock)
          case Some(vb) => Ok(Pair(key, value, Coordinates(vb)))
  }

  /** The outcome of the iteration for each key block of `order`. */
  function Attempts(order: seq<string>, ix: BlockIndex): (r: seq<Result<Pair, Fault>>)
    requires forall id :: id in order ==> id in ix.keyMap
    ensures |r| == |order|
  {
    seq(|order|, i requires 0 <= i < |order| => PairOf(ix.keyMap[order[i]], ix))
  }

  /** The iterations over the key blocks of `order`; the first that raises ends extraction. */
  function PairsFrom(order: seq<string>, ix: BlockIndex): Result<seq<Pair>, Fault>
    requires forall id :: id in order ==> id in ix.keyMap
  {
    Collect(Attempts(order, ix))
  }

  /** The assignments the iterations make, each under its key. */
  function Writes(ps: seq<Pair>): seq<(string, Pair)>
  {
    if ps == [] then [] else Writes(ps[..|ps| - 1]) + [(ps[|ps| - 1].key, ps[|ps| - 1])]
  }

  /** The two dicts extract_key_value_pairs returns: `key_value_pairs` maps a key's text to its
      value's text, `key_value_pairs_obj` maps it to the value's geometry entry. */
  datatype KeyValues = KeyValues(pairs: map<string, string>, boxes: map<string, map<string, Json>>)

  /** The dicts after the iterations `ps`: every iteration assigns its key in both. */
  function DictsOf(ps: seq<Pair>): KeyValues
  {
    var last := LastWins(Writes(ps));
    KeyValues(map k | k in last :: last[k].value, map k | k in last :: GeometryEntry(last[k].box))
  }

  function KeyValuesOf(blocks: seq<Block>): Result<KeyValues, Fault>
  {
    match IndexOf(blocks)
    case Err(e) => Err(e)
    case Ok(ix) =>
      match PairsFrom(ix.keyOrder, ix)
      case Err(e) => Err(e)
      case Ok(ps) => Ok(DictsOf(ps))
  }

  method ExtractKeyValuePairs(blocks: seq<Block>) returns (r: Result<KeyValues, Fault>)
    ensures r == KeyValuesOf(blocks)
  {
    var indexed := IndexBlocks(blocks);
    if indexed.Err? {
      return Err(indexed.error);
    }
    var ix := indexed.value;
    var keyValuePairs: map<string, string> := map[];
    var keyValuePairsObj: map<string, map<string, Json>> := map[];
    ghost var done: seq<Pair> := [];
    ghost var attempts := Attempts(ix.keyOrder, ix);
    var i := 0;
    assert attempts[0..] == attempts;
    PrefixedEmpty(Collect(attempts));
    while i < |ix.keyOrder|
      invariant 0 <= i <= |ix.keyOrder|
      invariant PairsFrom(ix.keyOrder, ix) == Prefixed(done, Collect(attempts[i..]))
      invariant keyValuePairs == DictsOf(done).pairs
      invariant keyValuePairsObj == DictsOf(done).boxes
    {
      var keyBlock := ix.keyMap[ix.keyOrder[i]];
      CollectStep(attempts, i);
      var valueBlock := FindValueBlock(keyBlock, ix.valueMap);
      if valueBlock.Err? {
        return Err(valueBlock.error);
      }
      var key := GetText(Some(keyBlock), ix.blockMap);
      if key.Err? {
        return Err(key.error);
      }
      var value := GetText(valueBlock.value, ix.blockMap);
      if value.Err? {
        return Err(value.error);
      }
      keyValuePairs := keyValuePairs[key.value := value.value];
      if valueBlock.value.Some? {
        var box := Coordinates(valueBlock.value.value);
        keyValuePairsObj := keyValuePairsObj[key.value := GeometryEntry(box)];
        var p := Pair(key.value, value.value, box);
        DictsOfSnoc(done, p);
        PrefixedTwice(done, [p], Collect(attempts[i + 1..]));
        done := done + [p];
      }
      i := i + 1;
    }
    assert attempts[i..] == [];
    assert done + [] == done;
    return Ok(KeyValues(keyValuePairs, keyValuePairsObj));
  }

  /** One more iteration assigns its key in both dicts. */
  lemma {:induction false} DictsOfSnoc(ps: seq<Pair>, p: Pair)
    ensures DictsOf(ps + [p]).pairs == DictsOf(ps).pairs[p.key := p.value]
    ensures DictsOf(ps + [p]).boxes == DictsOf(ps).boxes[p.key := GeometryEntry(p.box)]
  {
    assert (ps + [p])[..|ps|] == ps;
    LastWinsSnoc(Writes(ps), p.key, p);
  }

  /** An iteration completes exactly when the key block has a value block and both texts
      can be computed; it then records those texts and the value block's box. */
  lemma {:induction false} PairOfMeaning(keyBlock: Block, ix: BlockIndex)
    ensures PairOf(keyBlock, ix).Ok? <==>
              && ValueBlockOf(keyBlock, ix.valueMap).Ok?
              && ValueBlockOf(keyBlock, ix.valueMap).value.Some?
              && TextOf(Some(keyBlock), ix.blockMap).Ok?
              && TextOf(ValueBlockOf(keyBlock, ix.valueMap).value, ix.blockMap).Ok?
    ensures PairOf(keyBlock, ix).Ok? ==>
              var vb := ValueBlockOf(keyBlock, ix.valueMap).value.value;
              PairOf(keyBlock, ix).value
                == Pair(TextOf(Some(keyBlock), ix.blockMap).value, TextOf(Some(vb), ix.blockMap).value,
                        Coordinates(vb))
  {
  }

  /** The iterations follow `key_map` order: the i-th pair is that of the i-th key block. */
  lemma {:induction false} PairsFromAt(order: seq<string>, ix: BlockIndex, ps: seq<Pair>)
    requires forall id :: id in order ==> id in ix.keyMap
    requires PairsFrom(order, ix) == Ok(ps)
    ensures |ps| == |order|
    ensures forall i :: 0 <= i < |ps| ==> PairOf(ix.keyMap[order[i]], ix) == Ok(ps[i])
  {
    CollectOk(Attempts(order, ix), ps);
  }

  /** The first key block whose iteration raises decides the error of the whole extraction. */
  lemma {:induction false} PairsFromFirstError(order: seq<string>, ix: BlockIndex, i: nat)
    requires forall id :: id in order ==> id in ix.keyMap
    requires i < |order| && PairOf(ix.keyMap[order[i]], ix).Err?
    requires forall j :: 0 <= j < i ==> PairOf(ix.keyMap[order[j]], ix).Ok?
    ensures PairsFrom(order, ix) == Err(PairOf(ix.keyMap[order[i]], ix).error)
  {
    CollectErr(Attempts(order, ix), i);
  }

  lemma {:induction false} WritesAt(ps: seq<Pair>)
    ensures |Writes(ps)| == |ps|
    ensures forall i :: 0 <= i < |ps| ==> Writes(ps)[i] == (ps[i].key, ps[i])
  {
    if ps != [] {
      WritesAt(ps[..|ps| - 1]);
    }
  }

  /** Both dicts have one key per distinct key text of the iterations. */
  lemma {:induction false} DictsKeys(ps: seq<Pair>)
    ensures DictsOf(ps).pairs.Keys == DictsOf(ps).boxes.Keys
    ensures forall k :: k in DictsOf(ps).pairs <==> exists i :: 0 <= i < |ps| && ps[i].key == k
  {
    WritesAt(ps);
    LastWinsKeys(Writes(ps));
    forall k | (exists i :: 0 <= i < |ps| && ps[i].key == k) ensures k in DictsOf(ps).pairs {
      var i :| 0 <= i < |ps| && ps[i].key == k;
      assert Writes(ps)[i].0 == k;
    }
  }

  /** A key is decided by the last iteration with that key text, in both dicts: its value
      text, and a geometry entry holding that iteration's box and an empty `Value`. */
  lemma {:induction false} DictsLastWriter(ps: seq<Pair>, k: string)
    requires k in DictsOf(ps).pairs
    ensures k in DictsOf(ps).boxes
    ensures exists i :: && 0 <= i < |ps| && ps[i].key == k
                        && DictsOf(ps).pairs[k] == ps[i].value
                        && DictsOf(ps).boxes[k] == GeometryEntry(ps[i].box)
                        && forall j :: i < j < |ps| ==> ps[j].key != k
  {
    WritesAt(ps);
    LastWinsSource(Writes(ps), k);
  }

  /** Every entry of `key_value_pairs_obj` has exactly the fields `BoundingBox` and `Value`,
      and `Value` is the empty string. */
  lemma {:induction false} DictsBoxShape(ps: seq<Pair>, k: string)
    requires k in DictsOf(ps).boxes
    ensures DictsOf(ps).boxes[k].Keys == {"BoundingBox", "Value"}
    ensures DictsOf(ps).boxes[k]["Value"] == JString("")
  {
  }

  /** For the extraction as a whole: a reported key comes from the last key block, in
      `key_map` order, whose text it is; its value and its box come from that key block's
      value block. */
  lemma {:induction false} KeyValuesLastWriter(ix: BlockIndex, ps: seq<Pair>, k: string)
    requires forall id :: id in ix.keyOrder ==> id in ix.keyMap
    requires PairsFrom(ix.keyOrder, ix) == Ok(ps)
    requires k in DictsOf(ps).pairs
    ensures |ps| == |ix.keyOrder|
    ensures exists i :: && 0 <= i < |ps|
                        && PairOf(ix.keyMap[ix.keyOrder[i]], ix) == Ok(ps[i])
                        && ps[i].key == k
                        && DictsOf(ps).pairs[k] == ps[i].value
                        && DictsOf(ps).boxes[k] == GeometryEntry(ps[i].box)
                        && forall j :: i < j < |ps| ==> ps[j].key != k
  {
    PairsFromAt(ix.keyOrder, ix, ps);
    DictsLastWriter(ps, k);
  }

  /** A key block with no resolvable value block (or without `Relationships`) makes the whole
      extraction raise. */
  lemma {:induction false} KeyValuesNeedValueBlocks(ix: BlockIndex, id: string)
    requires forall id :: id in ix.keyOrder ==> id in ix.keyMap
    requires id in ix.keyOrder
    requires !(ValueBlockOf(ix.keyMap[id], ix.valueMap).Ok? && ValueBlockOf(ix.keyMap[id], ix.valueMap).value.Some?)
    ensures PairsFrom(ix.keyOrder, ix).Err?
  {
    var attempts := Attempts(ix.keyOrder, ix);
    var i :| 0 <= i < |ix.keyOrder| && ix.keyOrder[i] == id;
    CollectFails(attempts, i);
  }

  // ---------------------------------------------------------------------------
  // extract_table_content, find_block_by_id, get_text_from_block
  // ---------------------------------------------------------------------------

  /** The first block with the given id, `None` when there is none. */
  function BlockById(id: string, blocks: seq<Block>): Option<Block>
  {
    if blocks == [] then None
    else if blocks[0].id == id then Some(blocks[0])
    else BlockById(id, blocks[1..])
  }

  method FindBlockById(id: string, blocks: seq<Block>) returns (r: Option<Block>)
    ensures r == BlockById(id, blocks)
  {
    var i := 0;
    assert blocks[0..] == blocks;
    while i < |blocks|
      invariant 0 <= i <= |blocks|
      invariant BlockById(id, blocks) == BlockById(id, blocks[i..])
    {
      assert blocks[i..][0] == blocks[i] && blocks[i..][1..] == blocks[i + 1..];
      if blocks[i].id == id {
        return Some(blocks[i]);
      }
      i := i + 1;
    }
    return None;
  }

  /** `find_block_by_id` finds nothing exactly when no block has the id, and otherwise the
      first block that has it. */
  lemma {:induction false} BlockByIdIsFirst(id: string, blocks: seq<Block>)
    ensures BlockById(id, blocks).None? <==> forall i :: 0 <= i < |blocks| ==> blocks[i].id != id
    ensures BlockById(id, blocks).Some? ==>
              exists i :: && 0 <= i < |blocks| && blocks[i] == BlockById(id, blocks).value
                          && blocks[i].id == id
                          && forall j :: 0 <= j < i ==> blocks[j].id != id
  {
    if blocks != [] && blocks[0].id != id {
      BlockByIdIsFirst(id, blocks[1..]);
      if BlockById(id, blocks[1..]).Some? {
        var i :| && 0 <= i < |blocks[1..]| && blocks[1..][i] == BlockById(id, blocks[1..]).value
                 && blocks[1..][i].id == id && forall j :: 0 <= j < i ==> blocks[1..][j].id != id;
        assert blocks[i + 1] == blocks[1..][i];
        forall j | 0 <= j < i + 1 ensures blocks[j].id != id {
          if j > 0 { assert blocks[j] == blocks[1..][j - 1]; }
        }
      } else {
        forall i | 0 <= i < |blocks| ensures blocks[i].id != id {
          if i > 0 { assert blocks[i] == blocks[1..][i - 1]; }
        }
      }
    }
  }

  /** Whether some `CHILD` relationship lists at least one id. */
  predicate HasChildIds(rels: seq<Relationship>)
  {
    exists i :: 0 <= i < |rels| && rels[i].relType == CHILD && rels[i].ids != []
  }

  /** get_text_from_block: a cell's `Text` when it has one. Otherwise the first child id of a
      `CHILD` relationship makes it look up `blocks`, a name the function does not define,
      which raises; without such an id the text is empty. A lookup that found nothing raises
      as soon as it is asked for `Text`. */
  function CellText(block: Option<Block>): Result<string, Fault>
  {
    match block
    case None => Err(NotABlock)
    case Some(b) =>
      if b.text.Some? then Ok(b.text.value)
      else if b.relationships.Some? && HasChildIds(b.relationships.value) then Err(UndefinedName("blocks"))
      else Ok("")
  }

  method GetTextFromBlock(block: Option<Block>) returns (r: Result<string, Fault>)
    ensures r == CellText(block)
  {
    if block.None? {
      return Err(NotABlock);
    }
    var b := block.value;
    var text := "";
    if b.text.Some? {
      return Ok(b.text.value);
    }
    if b.relationships.Some? {
      var rels := b.relationships.value;
      var i := 0;
      while i < |rels|
        invariant 0 <= i <= |rels|
        invariant forall k :: 0 <= k < i ==> !(rels[k].relType == CHILD && rels[k].ids != [])
      {
        if rels[i].relType == CHILD && rels[i].ids != [] {
          // the first child id is looked up in `blocks`, which is not defined here
          return Err(UndefinedName("blocks"));
        }
        i := i + 1;
      }
    }
    return Ok(Strip(text));
  }

  /** The outcome of get_text_from_block for the block of each id. */
  function CellAttempts(ids: seq<string>, blocks: seq<Block>): (r: seq<Result<string, Fault>>)
    ensures |r| == |ids|
  {
    seq(|ids|, k requires 0 <= k < |ids| => CellText(BlockById(ids[k], blocks)))
  }

  /** The cells of one row: the text of the block of each id, in order. */
  function RowOf(ids: seq<string>, blocks: seq<Block>): Result<seq<string>, Fault>
  {
    Collect(CellAttempts(ids, blocks))
  }

  /** The rows of a table: one per `CHILD` relationship, in order. */
  function RowsFrom(rels: seq<Relationship>, blocks: seq<Block>): Result<seq<seq<string>>, Fault>
  {
    if rels == [] then Ok([])
    else if rels[0].relType == CHILD then Then(Single(RowOf(rels[0].ids, blocks)), RowsFrom(rels[1..], blocks))
    else RowsFrom(rels[1..], blocks)
  }

  /** One table: a `TABLE` block without `Relationships` raises. */
  function TableOf(table: Block, blocks: seq<Block>): Result<seq<seq<string>>, Fault>
  {
    if table.relationships.None? then Err(MissingField(table.id, "Relationships"))
    else RowsFrom(table.relationships.value, blocks)
  }

  /** The tables of the `TABLE` blocks among `bs`, in order, cells being looked up in `blocks`. */
  function TablesFrom(bs: seq<Block>, blocks: seq<Block>): Result<seq<seq<seq<string>>>, Fault>
  {
    if bs == [] then Ok([])
    else if bs[0].blockType == TABLE then Then(Single(TableOf(bs[0], blocks)), TablesFrom(bs[1..], blocks))
    else TablesFrom(bs[1..], blocks)
  }

  function TableContentOf(blocks: seq<Block>): Result<seq<seq<seq<string>>>, Fault>
  {
    TablesFrom(blocks, blocks)
  }

  method ExtractRow(ids: seq<string>, blocks: seq<Block>) returns (r: Result<seq<string>, Fault>)
    ensures r == RowOf(ids, blocks)
  {
    ghost var attempts := CellAttempts(ids, blocks);
    var row: seq<string> := [];
    var k := 0;
    assert attempts[0..] == attempts;
    PrefixedEmpty(Collect(attempts));
    while k < |ids|
      invariant 0 <= k <= |ids|
      invariant RowOf(ids, blocks) == Prefixed(row, Collect(attempts[k..]))
    {
      CollectStep(attempts, k);
      var cellBlock := FindBlockById(ids[k], blocks);
      var cellText := GetTextFromBlock(cellBlock);
      if cellText.Err? {
        return Err(cellText.error);
      }
      PrefixedTwice(row, [cellText.value], Collect(attempts[k + 1..]));
      row := row + [cellText.value];
      k := k + 1;
    }
    assert attempts[k..] == [];
    assert row + [] == row;
    return Ok(row);
  }

  method ExtractTableContent(blocks: seq<Block>) returns (r: Result<seq<seq<seq<string>>>, Fault>)
    ensures r == TableContentOf(blocks)
  {
    var tables: seq<seq<seq<string>>> := [];
    var i := 0;
    assert blocks[0..] == blocks;
    PrefixedEmpty(TablesFrom(blocks, blocks));
    while i < |blocks|
      invariant 0 <= i <= |blocks|
      invariant TableContentOf(blocks) == Prefixed(tables, TablesFrom(blocks[i..], blocks))
    {
      var block := blocks[i];
      assert blocks[i..][0] == block && blocks[i..][1..] == blocks[i + 1..];
      if block.blockType == TABLE {
        if block.relationships.None? {
          return Err(MissingField(block.id, "Relationships"));
        }
        var rels := block.relationships.value;
        var table: seq<seq<string>> := [];
        var j := 0;
        assert rels[0..] == rels;
        PrefixedEmpty(RowsFrom(rels, blocks));
        while j < |rels|
          invariant 0 <= j <= |rels|
          invariant RowsFrom(rels, blocks) == Prefixed(table, RowsFrom(rels[j..], blocks))
        {
          assert rels[j..][0] == rels[j] && rels[j..][1..] == rels[j + 1..];
          if rels[j].relType == CHILD {
            var row := ExtractRow(rels[j].ids, blocks);
            if row.Err? {
              return Err(row.error);
            }
            PrefixedTwice(table, [row.value], RowsFrom(rels[j + 1..], blocks));
            table := table + [row.value];
          }
          j := j + 1;
        }
        assert rels[j..] == [];
        assert table + [] == table;
        PrefixedTwice(tables, [table], TablesFrom(blocks[i + 1..], blocks));
        tables := tables + [table];
      }
      i := i + 1;
    }
    assert blocks[i..] == [];
    assert tables + [] == tables;
    return Ok(tables);
  }

  /** The `TABLE` blocks among `bs`, in order. */
  function TableBlocks(bs: seq<Block>): seq<Block>
  {
    if bs == [] then []
    else (if bs[0].blockType == TABLE then [bs[0]] else []) + TableBlocks(bs[1..])
  }

  /** A row holds one cell per id, the i-th being the text of the block with the i-th id. */
  lemma {:induction false} RowShape(ids: seq<string>, blocks: seq<Block>, row: seq<string>)
    requires RowOf(ids, blocks) == Ok(row)
    ensures |row| == |ids|
    ensures forall k :: 0 <= k < |ids| ==> CellText(BlockById(ids[k], blocks)) == Ok(row[k])
  {
    CollectOk(CellAttempts(ids, blocks), row);
  }

  /** A table holds one row per `CHILD` relationship, the i-th row listing the cells of the
      i-th such relationship; other relationships contribute nothing. */
  lemma {:induction false} RowsShape(rels: seq<Relationship>, blocks: seq<Block>, rows: seq<seq<string>>)
    requires RowsFrom(rels, blocks) == Ok(rows)
    ensures |rows| == |OfType(rels, CHILD)|
    ensures forall k :: 0 <= k < |rows| ==> RowOf(OfType(rels, CHILD)[k].ids, blocks) == Ok(rows[k])
  {
    if rels != [] {
      var rest := RowsFrom(rels[1..], blocks);
      if rels[0].relType == CHILD {
        ThenSingle(RowOf(rels[0].ids, blocks), rest);
        RowsShape(rels[1..], blocks, rest.value);
        var o := OfType(rels, CHILD);
        assert o == [rels[0]] + OfType(rels[1..], CHILD);
        forall k | 0 <= k < |rows| ensures RowOf(o[k].ids, blocks) == Ok(rows[k]) {
          if k > 0 { assert o[k] == OfType(rels[1..], CHILD)[k - 1] && rows[k] == rest.value[k - 1]; }
        }
      } else {
        RowsShape(rels[1..], blocks, rows);
        assert OfType(rels, CHILD) == OfType(rels[1..], CHILD);
      }
    }
  }

  /** extract_table_content returns one table per `TABLE` block, in order. */
  lemma {:induction false} TablesShape(bs: seq<Block>, blocks: seq<Block>, tables: seq<seq<seq<string>>>)
    requires TablesFrom(bs, blocks) == Ok(tables)
    ensures |tables| == |TableBlocks(bs)|
    ensures forall k :: 0 <= k < |tables| ==> TableOf(TableBlocks(bs)[k], blocks) == Ok(tables[k])
  {
    if bs != [] {
      var rest := TablesFrom(bs[1..], blocks);
      if bs[0].blockType == TABLE {
        ThenSingle(TableOf(bs[0], blocks), rest);
        TablesShape(bs[1..], blocks, rest.value);
        var t := TableBlocks(bs);
        assert t == [bs[0]] + TableBlocks(bs[1..]);
        forall k | 0 <= k < |tables| ensures TableOf(t[k], blocks) == Ok(tables[k]) {
          if k > 0 { assert t[k] == TableBlocks(bs[1..])[k - 1] && tables[k] == rest.value[k - 1]; }
        }
      } else {
        TablesShape(bs[1..], blocks, tables);
        assert TableBlocks(bs) == TableBlocks(bs[1..]);
      }
    }
  }

  lemma {:induction false} RowsFromFails(rels: seq<Relationship>, blocks: seq<Block>, j: nat)
    requires j < |rels| && rels[j].relType == CHILD && RowOf(rels[j].ids, blocks).Err?
    ensures RowsFrom(rels, blocks).Err?
  {
    if j > 0 {
      RowsFromFails(rels[1..], blocks, j - 1);
      if rels[0].relType == CHILD {
        ThenSingle(RowOf(rels[0].ids, blocks), RowsFrom(rels[1..], blocks));
      }
    }
  }

  lemma {:induction false} TablesFromFails(bs: seq<Block>, blocks: seq<Block>, i: nat)
    requires i < |bs| && bs[i].blockType == TABLE && TableOf(bs[i], blocks).Err?
    ensures TablesFrom(bs, blocks).Err?
  {
    if i > 0 {
      TablesFromFails(bs[1..], blocks, i - 1);
      if bs[0].blockType == TABLE {
        ThenSingle(TableOf(bs[0], blocks), TablesFrom(bs[1..], blocks));
      }
    }
  }

  /** A cell that has no `Text` of its own but lists its words as `CHILD` ids (how Textract
      describes a non-empty table cell) makes the whole table extraction raise. */
  lemma {:induction false} CellWithWordsFails(blocks: seq<Block>, i: nat, j: nat, k: nat)
    requires i < |blocks| && blocks[i].blockType == TABLE && blocks[i].relationships.Some?
    requires j < |blocks[i].relationships.value|
    requires blocks[i].relationships.value[j].relType == CHILD
    requires k < |blocks[i].relationships.value[j].ids|
    requires var cell := BlockById(blocks[i].relationships.value[j].ids[k], blocks);
             && cell.Some? && cell.value.text.None? && cell.value.relationships.Some?
             && HasChildIds(cell.value.relationships.value)
    ensures TableContentOf(blocks).Err?
  {
    var rel := blocks[i].relationships.value[j];
    CollectFails(CellAttempts(rel.ids, blocks), k);
    RowsFromFails(blocks[i].relationships.value, blocks, j);
    TablesFromFails(blocks, blocks, i);
  }

  // ---------------------------------------------------------------------------
  // api_analyze_document, over a response already obtained from Textract
  // ---------------------------------------------------------------------------

  /** OCRReturnType */
  datatype ReturnType = Raw | Text | KeyValuePairs | TableContent

  /** What api_analyze_document returns for each return type. */
  datatype OcrResult =
    | RawResponse(response: Response)
    | PlainText(text: string)
    | KeyValueDicts(dicts: KeyValues)
    | Tables(tables: seq<seq<seq<string>>>)

  method ApiAnalyzeDocument(response: Response, returnType: ReturnType) returns (r: Result<OcrResult, Fault>)
    ensures returnType == Raw ==> r == Ok(RawResponse(response))
    ensures returnType == Text ==>
              match LinesText(response.blocks)
              case Ok(text) => r == Ok(PlainText(text))
              case Err(e) => r == Err(e)
    ensures returnType == KeyValuePairs ==>
              match KeyValuesOf(response.blocks)
              case Ok(dicts) => r == Ok(KeyValueDicts(dicts))
              case Err(e) => r == Err(e)
    ensures returnType == TableContent ==>
              match TableContentOf(response.blocks)
              case Ok(tables) => r == Ok(Tables(tables))
              case Err(e) => r == Err(e)
  {
    match returnType
    case Text =>
      var text := GetTextFromResponse(response);
      r := if text.Ok? then Ok(PlainText(text.value)) else Err(text.error);
    case KeyValuePairs =>
      var dicts := ExtractKeyValuePairs(response.blocks);
      r := if dicts.Ok? then Ok(KeyValueDicts(dicts.value)) else Err(dicts.error);
    case TableContent =>
      var tables := ExtractTableContent(response.blocks);
      r := if tables.Ok? then Ok(Tables(tables.value)) else Err(tables.error);
    case Raw =>
      r := Ok(RawResponse(response));
  }
}

=== FILE: form_filling.dfy ===
/** flatten_keys and the schema that ai_form_filling builds from it in auto mode
    (quickfill/quickfill/ai/form_filling.py). A dict is a `JObject` whose entries are
    visited in order. */
module FormFilling {
  import opened JsonValue
  import opened PyStr
  import opened PyDict

  /** The default separator of flatten_keys. */
  const DefaultSep: string := "$$"

  /** The key a nested entry gets: the parent key and the entry's key joined by `sep`, or the
      entry's key alone when the parent key is empty. */
  function NewKey(parentKey: string, k: string, sep: string): string
  {
    if parentKey != "" then parentKey + sep + k else k
  }

  /** The assignments flatten_keys makes into `items` for the entries from the i-th on: a
      nested dict contributes the assignments of its own flattening (`items.update`), any other
      value one assignment under its new key. */
  function FlatWrites(fields: seq<(string, Json)>, parentKey: string, sep: string, i: nat): seq<(string, Json)>
    decreases JObject(fields), |fields| - i
  {
    if i >= |fields| then []
    else
      var newKey := NewKey(parentKey, fields[i].0, sep);
      (if fields[i].1.JObject? then FlatWrites(fields[i].1.fields, newKey, sep, 0) else [(newKey, fields[i].1)])
      + FlatWrites(fields, parentKey, sep, i + 1)
  }

  /** The dict flatten_keys returns. */
  function Flattened(fields: seq<(string, Json)>, parentKey: string, sep: string): map<string, Json>
  {
    LastWins(FlatWrites(fields, parentKey, sep, 0))
  }

  method FlattenKeys(data: seq<(string, Json)>, parentKey: string, sep: string) returns (items: map<string, Json>)
    ensures items == Flattened(data, parentKey, sep)
    decreases JObject(data)
  {
    items := map[];
    var i := 0;
    assert Flattened(data, parentKey, sep) == items + LastWins(FlatWrites(data, parentKey, sep, 0));
    while i < |data|
      invariant 0 <= i <= |data|
      invariant Flattened(data, parentKey, sep) == items + LastWins(FlatWrites(data, parentKey, sep, i))
    {
      var k := data[i].0;
      var v := data[i].1;
      var newKey := NewKey(parentKey, k, sep);
      if v.JObject? {
        var nested := FlattenKeys(v.fields, newKey, sep);
        FlattenStep(data, parentKey, sep, i, items, nested);
        items := items + nested;
      } else {
        FlattenStep(data, parentKey, sep, i, items, map[newKey := v]);
        assert items + map[newKey := v] == items[newKey := v];
        items := items[newKey := v];
      }
      i := i + 1;
    }
  }

  /** The loop invariant of flatten_keys is kept by one more entry. */
  lemma {:induction false} FlattenStep(data: seq<(string, Json)>, parentKey: string, sep: string, i: nat,
                    items: map<string, Json>, here: map<string, Json>)
    requires i < |data|
    requires here == if data[i].1.JObject? then Flattened(data[i].1.fields, NewKey(parentKey, data[i].0, sep), sep)
                     else map[NewKey(parentKey, data[i].0, sep) := data[i].1]
    requires Flattened(data, parentKey, sep) == items + LastWins(FlatWrites(data, parentKey, sep, i))
    ensures Flattened(data, parentKey, sep) == (items + here) + LastWins(FlatWrites(data, parentKey, sep, i + 1))
  {
    FlatStep(data, parentKey, sep, i);
    var rest := LastWins(FlatWrites(data, parentKey, sep, i + 1));
    assert items + (here + rest) == (items + here) + rest;
  }

  /** One entry of flatten_keys' loop: a nested dict merges its flattening, any other value
      is assigned under its new key, and the later entries override both. */
  lemma {:induction false} FlatStep(fields: seq<(string, Json)>, parentKey: string, sep: string, i: nat)
    requires i < |fields|
    ensures LastWins(FlatWrites(fields, parentKey, sep, i))
         == (if fields[i].1.JObject? then Flattened(fields[i].1.fields, NewKey(parentKey, fields[i].0, sep), sep)
             else map[NewKey(parentKey, fields[i].0, sep) := fields[i].1])
            + LastWins(FlatWrites(fields, parentKey, sep, i + 1))
  {
    var newKey := NewKey(parentKey, fields[i].0, sep);
    var here := if fields[i].1.JObject? then FlatWrites(fields[i].1.fields, newKey, sep, 0) else [(newKey, fields[i].1)];
    LastWinsAppend(here, FlatWrites(fields, parentKey, sep, i + 1));
    if !fields[i].1.JObject? {
      LastWinsSnoc([], newKey, fields[i].1);
      assert [] + [(newKey, fields[i].1)] == here;
    }
  }

  // ---------------------------------------------------------------------------
  // Leaves and their key paths
  // ---------------------------------------------------------------------------

  /** Every leaf (a value that is not a dict) below the entries from the i-th on, with the
      path of keys that leads to it, in visiting order. */
  function Leaves(fields: seq<(string, Json)>, i: nat): seq<(seq<string>, Json)>
    decreases JObject(fields), |fields| - i
  {
    if i >= |fields| then []
    else
      (if fields[i].1.JObject? then Under(fields[i].0, Leaves(fields[i].1.fields, 0)) else [([fields[i].0], fields[i].1)])
      + Leaves(fields, i + 1)
  }

  /** The leaves of a nested dict seen from the entry `k` that holds it. */
  function Under(k: string, leaves: seq<(seq<string>, Json)>): seq<(seq<string>, Json)>
  {
    seq(|leaves|, j requires 0 <= j < |leaves| => ([k] + leaves[j].0, leaves[j].1))
  }

  /** The flattened key of a path below a parent key: NewKey applied segment by segment. */
  function KeyOf(parentKey: string, path: seq<string>, sep: string): string
    decreases |path|
  {
    if path == [] then parentKey else KeyOf(NewKey(parentKey, path[0], sep), path[1..], sep)
  }

  /** Each leaf under its flattened key. */
  function Keyed(leaves: seq<(seq<string>, Json)>, parentKey: string, sep: string): seq<(string, Json)>
  {
    seq(|leaves|, j requires 0 <= j < |leaves| => (KeyOf(parentKey, leaves[j].0, sep), leaves[j].1))
  }

  lemma {:induction false} KeyedAppend(a: seq<(seq<string>, Json)>, b: seq<(seq<string>, Json)>, parentKey: string, sep: string)
    ensures Keyed(a + b, parentKey, sep) == Keyed(a, parentKey, sep) + Keyed(b, parentKey, sep)
  {
  }

  lemma {:induction false} KeyedUnder(k: string, leaves: seq<(seq<string>, Json)>, parentKey: string, sep: string)
    ensures Keyed(Under(k, leaves), parentKey, sep) == Keyed(leaves, NewKey(parentKey, k, sep), sep)
  {
    forall j | 0 <= j < |leaves|
      ensures KeyOf(parentKey, [k] + leaves[j].0, sep) == KeyOf(NewKey(parentKey, k, sep), leaves[j].0, sep)
    {
      assert ([k] + leaves[j].0)[1..] == leaves[j].0;
    }
  }

  /** flatten_keys assigns every leaf, in visiting order, under the key of its path. */
  lemma {:induction false} FlatWritesAreKeyedLeaves(fields: seq<(string, Json)>, parentKey: string, sep: string, i: nat)
    ensures FlatWrites(fields, parentKey, sep, i) == Keyed(Leaves(fields, i), parentKey, sep)
    decreases JObject(fields), |fields| - i
  {
    if i < |fields| {
      var k := fields[i].0;
      var v := fields[i].1;
      FlatWritesAreKeyedLeaves(fields, parentKey, sep, i + 1);
      if v.JObject? {
        FlatWritesAreKeyedLeaves(v.fields, NewKey(parentKey, k, sep), sep, 0);
        KeyedUnder(k, Leaves(v.fields, 0), parentKey, sep);
        KeyedAppend(Under(k, Leaves(v.fields, 0)), Leaves(fields, i + 1), parentKey, sep);
      } else {
        assert KeyOf(parentKey, [k], sep) == NewKey(parentKey, k, sep) by {
          assert [k][1..] == [];
        }
        KeyedAppend([([k], v)], Leaves(fields, i + 1), parentKey, sep);
      }
    }
  }

  /** No leaf is a dict, and every leaf has a non-empty path. */
  lemma {:induction false} LeavesAreLeaves(fields: seq<(string, Json)>, i: nat)
    ensures forall j :: 0 <= j < |Leaves(fields, i)| ==> !Leaves(fields, i)[j].1.JObject? && Leaves(fields, i)[j].0 != []
    decreases JObject(fields), |fields| - i
  {
    if i < |fields| {
      LeavesAreLeaves(fields, i + 1);
      if fields[i].1.JObject? {
        LeavesAreLeaves(fields[i].1.fields, 0);
      }
    }
  }

  /** Below a non-empty parent key, a path's key is the parent and the path's segments joined
      by `sep`. */
  lemma {:induction false} KeyOfBelow(parentKey: string, path: seq<string>, sep: string)
    requires parentKey != "" && path != []
    ensures KeyOf(parentKey, path, sep) == parentKey + sep + Join(path, sep)
    decreases |path|
  {
    var next := parentKey + sep + path[0];
    if |path| == 1 {
      assert path[1..] == [];
    } else {
      KeyOfBelow(next, path[1..], sep);
      assert next + sep + Join(path[1..], sep) == parentKey + sep + (path[0] + sep + Join(path[1..], sep));
    }
  }

  /** At the top level, the key of a leaf path is its segments joined by `sep`, provided its
      first segment is not the empty string: an empty key is skipped by the `if parent_key`
      test, so the segment after it is not preceded by a separator. */
  lemma {:induction false} KeyOfIsJoin(path: seq<string>, sep: string)
    requires path == [] || path[0] != ""
    ensures KeyOf("", path, sep) == Join(path, sep)
  {
    if path != [] && |path| > 1 {
      KeyOfBelow(path[0], path[1..], sep);
    } else if path != [] {
      assert path[1..] == [];
    }
  }

  /** At the top level a path's key is never longer than its segments joined by `sep`. */
  lemma {:induction false} KeyOfAtMostJoin(path: seq<string>, sep: string)
    ensures |KeyOf("", path, sep)| <= |Join(path, sep)|
    decreases |path|
  {
    if path != [] && path[0] != "" {
      KeyOfIsJoin(path, sep);
    } else if |path| > 1 {
      KeyOfAtMostJoin(path[1..], sep);
    } else if path != [] {
      assert path[1..] == [];
    }
  }

  /** For a non-empty separator, the exception to `KeyOfIsJoin` is exact: a path's top-level key
      is its segments joined by `sep` if and only if the path has at most one segment or its
      first segment is not empty. */
  lemma {:induction false} KeyOfIsJoinExactly(path: seq<string>, sep: string)
    requires sep != ""
    ensures KeyOf("", path, sep) == Join(path, sep) <==> |path| <= 1 || path[0] != ""
  {
    if path != [] && path[0] != "" {
      KeyOfIsJoin(path, sep);
    } else if |path| == 1 {
      assert path[1..] == [];
    } else if |path| > 1 {
      KeyOfAtMostJoin(path[1..], sep);
      assert |Join(path, sep)| == |sep| + |Join(path[1..], sep)|;
    }
  }

  /** An empty first key is swallowed: `{"": {"b": 1}}` flattens `b` under `b`, not `$$b`. */
  lemma {:induction false} EmptyKeySwallowed(v: Json)
    requires !v.JObject?
    ensures Flattened([("", JObject([("b", v)]))], "", DefaultSep) == map["b" := v]
    ensures Join(["", "b"], DefaultSep) == "$$b"
  {
    var inner := [("b", v)];
    LastWinsSnoc([], "b", v);
    assert [] + [("b", v)] == inner;
    assert FlatWrites(inner, "", DefaultSep, 1) == [];
    assert FlatWrites(inner, "", DefaultSep, 0) == [("b", v)];
    assert FlatWrites([("", JObject(inner))], "", DefaultSep, 1) == [];
    assert FlatWrites([("", JObject(inner))], "", DefaultSep, 0) == [("b", v)];
    assert [("b", v)][..0] == [];
    assert ["", "b"][1..] == ["b"];
  }

  // ---------------------------------------------------------------------------
  // Properties of the flattened dict
  // ---------------------------------------------------------------------------

  /** The keys of the flattened dict are exactly the keys of the leaf paths. */
  lemma {:induction false} FlattenedKeys(fields: seq<(string, Json)>, parentKey: string, sep: string)
    ensures forall k :: k in Flattened(fields, parentKey, sep) <==>
              exists j :: 0 <= j < |Leaves(fields, 0)| && KeyOf(parentKey, Leaves(fields, 0)[j].0, sep) == k
  {
    FlatWritesAreKeyedLeaves(fields, parentKey, sep, 0);
    LastWinsKeys(FlatWrites(fields, parentKey, sep, 0));
    var ls := Leaves(fields, 0);
    var ws := FlatWrites(fields, parentKey, sep, 0);
    forall k ensures k in Flattened(fields, parentKey, sep) <==>
              exists j :: 0 <= j < |ls| && KeyOf(parentKey, ls[j].0, sep) == k
    {
      if k in Flattened(fields, parentKey, sep) {
        var j :| 0 <= j < |ws| && ws[j].0 == k;
        assert KeyOf(parentKey, ls[j].0, sep) == k;
      }
      if exists j :: 0 <= j < |ls| && KeyOf(parentKey, ls[j].0, sep) == k {
        var j :| 0 <= j < |ls| && KeyOf(parentKey, ls[j].0, sep) == k;
        assert ws[j].0 == k;
      }
    }
  }

  /** No value of the flattened dict is a dict. */
  lemma {:induction false} FlattenedHasNoDicts(fields: seq<(string, Json)>, parentKey: string, sep: string)
    ensures forall k :: k in Flattened(fields, parentKey, sep) ==> !Flattened(fields, parentKey, sep)[k].JObject?
  {
    FlatWritesAreKeyedLeaves(fields, parentKey, sep, 0);
    LeavesAreLeaves(fields, 0);
    forall k | k in Flattened(fields, parentKey, sep)
      ensures !Flattened(fields, parentKey, sep)[k].JObject?
    {
      LastWinsSource(FlatWrites(fields, parentKey, sep, 0), k);
    }
  }

  /** A leaf at path `k1, ..., kn` (with `k1` non-empty) appears under `k1$$...$$kn`, with its
      own value unless a later leaf has the same flattened key. */
  lemma {:induction false} FlattenedLeaf(fields: seq<(string, Json)>, sep: string, j: nat)
    requires j < |Leaves(fields, 0)|
    requires Leaves(fields, 0)[j].0 != [] && Leaves(fields, 0)[j].0[0] != ""
    requires forall j' :: j < j' < |Leaves(fields, 0)| ==>
               KeyOf("", Leaves(fields, 0)[j'].0, sep) != KeyOf("", Leaves(fields, 0)[j].0, sep)
    ensures Join(Leaves(fields, 0)[j].0, sep) in Flattened(fields, "", sep)
    ensures Flattened(fields, "", sep)[Join(Leaves(fields, 0)[j].0, sep)] == Leaves(fields, 0)[j].1
  {
    FlatWritesAreKeyedLeaves(fields, "", sep, 0);
    KeyOfIsJoin(Leaves(fields, 0)[j].0, sep);
    LastWinsLast(FlatWrites(fields, "", sep, 0), j);
  }

  /** The number of flattened keys is at most the number of leaves. */
  lemma {:induction false} FlattenedSize(fields: seq<(string, Json)>, parentKey: string, sep: string)
    ensures |Flattened(fields, parentKey, sep)| <= |Leaves(fields, 0)|
  {
    FlatWritesAreKeyedLeaves(fields, parentKey, sep, 0);
    LastWinsSize(FlatWrites(fields, parentKey, sep, 0));
  }

  /** The flattened dict has fewer keys than there are leaves only when paths collide on the
      same key: with pairwise distinct keys there is one entry per leaf. */
  lemma {:induction false} FlattenedSizeDistinct(fields: seq<(string, Json)>, parentKey: string, sep: string)
    requires forall i, j :: 0 <= i < j < |Leaves(fields, 0)| ==>
               KeyOf(parentKey, Leaves(fields, 0)[i].0, sep) != KeyOf(parentKey, Leaves(fields, 0)[j].0, sep)
    ensures |Flattened(fields, parentKey, sep)| == |Leaves(fields, 0)|
  {
    FlatWritesAreKeyedLeaves(fields, parentKey, sep, 0);
    LastWinsSizeDistinct(FlatWrites(fields, parentKey, sep, 0));
  }

  /** A dict without nested dicts flattens (at the top level) to itself. */
  lemma {:induction false} FlatDictUnchanged(fields: seq<(string, Json)>, sep: string, i: nat)
    requires i <= |fields|
    requires forall j :: 0 <= j < |fields| ==> !fields[j].1.JObject?
    ensures FlatWrites(fields, "", sep, i) == fields[i..]
    decreases |fields| - i
  {
    if i < |fields| {
      FlatDictUnchanged(fields, sep, i + 1);
      assert fields[i..] == [fields[i]] + fields[i + 1..];
    }
  }

  /** Nested dicts that are empty contribute no keys at all. */
  lemma {:induction false} EmptyDictsContributeNothing(fields: seq<(string, Json)>, parentKey: string, sep: string, i: nat)
    requires forall j :: 0 <= j < |fields| ==> fields[j].1 == EmptyObject
    ensures FlatWrites(fields, parentKey, sep, i) == []
    decreases |fields| - i
  {
    if i < |fields| {
      EmptyDictsContributeNothing(fields, parentKey, sep, i + 1);
      assert FlatWrites([], NewKey(parentKey, fields[i].0, sep), sep, 0) == [];
    }
  }

  /** The target of the test of ai_form_filling flattens to the empty dict. */
  lemma {:induction false} TestTargetFlattensToNothing()
    ensures Flattened([("name", EmptyObject), ("height", EmptyObject), ("hair_color", EmptyObject)], "", DefaultSep)
         == map[]
  {
    EmptyDictsContributeNothing([("name", EmptyObject), ("height", EmptyObject), ("hair_color", EmptyObject)], "", DefaultSep, 0);
  }

  // ---------------------------------------------------------------------------
  // The schema of ai_form_filling
  // ---------------------------------------------------------------------------

  /** `{"type": "string"}` */
  const StringType: Json := JObject([("type", JString("string"))])

  /** The schema handed to the extraction chain: generated from the flattened keys in auto
      mode, the target itself otherwise. */
  datatype Schema =
    | Generated(properties: map<string, Json>, required: seq<string>)
    | Given(target: Json)

  function SchemaFor(targetJson: seq<(string, Json)>, auto: bool): (r: Schema)
    ensures auto ==> && r.Generated?
                     && r.required == []
                     && (forall k :: k in r.properties ==> r.properties[k] == StringType)
    ensures !auto ==> r == Given(JObject(targetJson))
  {
    if auto then Generated(map k | k in Flattened(targetJson, "", DefaultSep) :: StringType, [])
    else Given(JObject(targetJson))
  }

  /** In auto mode the schema has one property per leaf path of the target, named by the
      path's flattened key, and no others. */
  lemma {:induction false} AutoSchemaProperties(targetJson: seq<(string, Json)>)
    ensures forall k :: k in SchemaFor(targetJson, true).properties <==>
              exists j :: 0 <= j < |Leaves(targetJson, 0)| && KeyOf("", Leaves(targetJson, 0)[j].0, DefaultSep) == k
  {
    FlattenedKeys(targetJson, "", DefaultSep);
    assert SchemaFor(targetJson, true).properties.Keys == Flattened(targetJson, "", DefaultSep).Keys;
  }
}

=== FILE: json.dfy ===
/** JSON values as Python's json module produces them. An object is kept as its list of
    entries in insertion order, which is how a Python dict iterates; with distinct keys it
    is exactly a dict. */
module JsonValue {

  datatype Json =
    | JNull
    | JBool(b: bool)
    | JNumber(n: real)
    | JString(s: string)
    | JArray(items: seq<Json>)
    | JObject(fields: seq<(string, Json)>)

  /** The empty dict `{}`. */
  const EmptyObject: Json := JObject([])
}

=== FILE: pydict.dfy ===
/** Python dicts built by successive item assignment `d[k] = v`, starting from `{}`.
    `LastWins(kvs)` is the dict after assigning every pair of `kvs` in order, and
    `InsertionOrder(kvs)` is the order in which that dict iterates its keys (a key keeps
    the position of its first assignment; a later assignment only replaces the value). */
module PyDict {

  function LastWins<K(==), V>(kvs: seq<(K, V)>): map<K, V>
  {
    if kvs == [] then map[]
    else LastWins(kvs[..|kvs| - 1])[kvs[|kvs| - 1].0 := kvs[|kvs| - 1].1]
  }

  function InsertionOrder<K(==), V>(kvs: seq<(K, V)>): seq<K>
  {
    if kvs == [] then []
    else
      var order := InsertionOrder(kvs[..|kvs| - 1]);
      if kvs[|kvs| - 1].0 in order then order else order + [kvs[|kvs| - 1].0]
  }

  /** The keys assigned somewhere in `kvs`. */
  ghost function Assigned<K, V>(kvs: seq<(K, V)>): set<K>
  {
    set i | 0 <= i < |kvs| :: kvs[i].0
  }

  ghost predicate Distinct<K>(ks: seq<K>)
  {
    forall i, j :: 0 <= i < j < |ks| ==> ks[i] != ks[j]
  }

  /** Assigning a pair is the same as updating the dict built so far. */
  lemma {:induction false} LastWinsSnoc<K, V>(kvs: seq<(K, V)>, k: K, v: V)
    ensures LastWins(kvs + [(k, v)]) == LastWins(kvs)[k := v]
  {
    assert (kvs + [(k, v)])[..|kvs|] == kvs;
  }

  lemma {:induction false} InsertionOrderSnoc<K, V>(kvs: seq<(K, V)>, k: K, v: V)
    ensures InsertionOrder(kvs + [(k, v)])
         == if k in InsertionOrder(kvs) then InsertionOrder(kvs) else InsertionOrder(kvs) + [k]
  {
    assert (kvs + [(k, v)])[..|kvs|] == kvs;
  }

  /** The dict holds exactly the assigned keys. */
  lemma {:induction false} LastWinsKeys<K, V>(kvs: seq<(K, V)>)
    ensures LastWins(kvs).Keys == Assigned(kvs)
  {
    if kvs != [] {
      var n := |kvs| - 1;
      LastWinsKeys(kvs[..n]);
      assert Assigned(kvs) == Assigned(kvs[..n]) + {kvs[n].0} by {
        forall k | k in Assigned(kvs) ensures k in Assigned(kvs[..n]) + {kvs[n].0} {
          var i :| 0 <= i < |kvs| && kvs[i].0 == k;
          if i < n { assert kvs[..n][i] == kvs[i]; }
        }
        forall k | k in Assigned(kvs[..n]) ensures k in Assigned(kvs) {
          var i :| 0 <= i < n && kvs[..n][i].0 == k;
          assert kvs[i] == kvs[..n][i];
        }
      }
    }
  }

  /** Every key is bound to the value of its last assignment. */
  lemma {:induction false} LastWinsLast<K, V>(kvs: seq<(K, V)>, i: nat)
    requires i < |kvs|
    requires forall j :: i < j < |kvs| ==> kvs[j].0 != kvs[i].0
    ensures kvs[i].0 in LastWins(kvs) && LastWins(kvs)[kvs[i].0] == kvs[i].1
  {
    var n := |kvs| - 1;
    if i < n {
      forall j | i < j < n ensures kvs[..n][j].0 != kvs[..n][i].0 {
        assert kvs[..n][j] == kvs[j];
      }
      LastWinsLast(kvs[..n], i);
      assert kvs[..n][i] == kvs[i];
    }
  }

  /** Every binding of the dict comes from the last assignment of its key. */
  lemma {:induction false} LastWinsSource<K, V>(kvs: seq<(K, V)>, k: K)
    requires k in LastWins(kvs)
    ensures exists i :: 0 <= i < |kvs| && kvs[i].0 == k && LastWins(kvs)[k] == kvs[i].1
                        && forall j :: i < j < |kvs| ==> kvs[j].0 != k
  {
    var n := |kvs| - 1;
    if kvs[n].0 != k {
      LastWinsSource(kvs[..n], k);
      var i :| 0 <= i < n && kvs[..n][i].0 == k && LastWins(kvs[..n])[k] == kvs[..n][i].1
               && forall j :: i < j < n ==> kvs[..n][j].0 != k;
      assert kvs[i] == kvs[..n][i];
      forall j | i < j < |kvs| ensures kvs[j].0 != k {
        if j < n { assert kvs[j] == kvs[..n][j]; }
      }
    }
  }

  /** Assigning `a` and then `b` is updating with `a`'s dict and then with `b`'s. */
  lemma {:induction false} LastWinsAppend<K, V>(a: seq<(K, V)>, b: seq<(K, V)>)
    ensures LastWins(a + b) == LastWins(a) + LastWins(b)
  {
    if b != [] {
      var n := |b| - 1;
      assert a + b == (a + b[..n]) + [b[n]];
      LastWinsSnoc(a + b[..n], b[n].0, b[n].1);
      LastWinsAppend(a, b[..n]);
      LastWinsSnoc(b[..n], b[n].0, b[n].1);
      assert b[..n] + [b[n]] == b;
    } else {
      assert a + b == a;
    }
  }

  /** A dict never holds more entries than assignments were made. */
  lemma {:induction false} LastWinsSize<K, V>(kvs: seq<(K, V)>)
    ensures |LastWins(kvs)| <= |kvs|
  {
    if kvs != [] {
      var n := |kvs| - 1;
      LastWinsSize(kvs[..n]);
      var m := LastWins(kvs[..n]);
      if kvs[n].0 in m {
        assert m[kvs[n].0 := kvs[n].1].Keys == m.Keys;
      } else {
        assert m[kvs[n].0 := kvs[n].1].Keys == m.Keys + {kvs[n].0};
      }
    }
  }

  /** Iteration visits each key of the dict exactly once. */
  lemma {:induction false} InsertionOrderKeys<K, V>(kvs: seq<(K, V)>)
    ensures Distinct(InsertionOrder(kvs))
    ensures forall k :: k in InsertionOrder(kvs) <==> k in LastWins(kvs)
  {
    if kvs != [] {
      var n := |kvs| - 1;
      InsertionOrderKeys(kvs[..n]);
    }
  }

  /** Assignments to pairwise distinct keys give a dict with one entry per assignment. */
  lemma {:induction false} LastWinsSizeDistinct<K, V>(kvs: seq<(K, V)>)
    requires forall i, j :: 0 <= i < j < |kvs| ==> kvs[i].0 != kvs[j].0
    ensures |LastWins(kvs)| == |kvs|
  {
    if kvs != [] {
      var n := |kvs| - 1;
      LastWinsSizeDistinct(kvs[..n]);
      LastWinsKeys(kvs[..n]);
    }
  }
}

=== FILE: pystr.dfy ===
/** The few Python string operations the model needs: `str.strip()` with no argument,
    `sep.join(parts)`, and the text that `text += part + ' '` builds over a list of parts. */
module PyStr {

  /** The characters for which Python's `str.isspace()` holds; `strip()` removes exactly these. */
  predicate IsSpace(c: char)
  {
    || c == ' '
    || '\t' <= c <= '\r'
    || '\U{1C}' <= c <= '\U{1F}'
    || c == '\U{85}' || c == '\U{A0}' || c == '\U{1680}'
    || '\U{2000}' <= c <= '\U{200A}'
    || c == '\U{2028}' || c == '\U{2029}' || c == '\U{202F}' || c == '\U{205F}' || c == '\U{3000}'
  }

  function TrimLeft(s: string): (r: string)
    ensures |r| <= |s| && r == s[|s| - |r|..]
    ensures r == [] || !IsSpace(r[0])
    ensures forall k :: 0 <= k < |s| - |r| ==> IsSpace(s[k])
  {
    if s != [] && IsSpace(s[0]) then TrimLeft(s[1..]) else s
  }

  function TrimRight(s: string): (r: string)
    ensures |r| <= |s| && r == s[..|r|]
    ensures r == [] || !IsSpace(r[|r| - 1])
    ensures forall k :: |r| <= k < |s| ==> IsSpace(s[k])
  {
    if s != [] && IsSpace(s[|s| - 1]) then TrimRight(s[..|s| - 1]) else s
  }

  /** Python's `s.strip()`: the longest slice of `s` that neither starts nor ends with
      whitespace, everything cut off on either side being whitespace. */
  function Strip(s: string): (r: string)
    ensures r == [] || (!IsSpace(r[0]) && !IsSpace(r[|r| - 1]))
  {
    TrimRight(TrimLeft(s))
  }

  /** Python's `sep.join(parts)`. */
  function Join(parts: seq<string>, sep: string): string
  {
    if parts == [] then ""
    else if |parts| == 1 then parts[0]
    else parts[0] + sep + Join(parts[1..], sep)
  }

  /** What `text += part + ' '` builds from `''` over `parts`, in order. */
  function Spaced(parts: seq<string>): string
  {
    if parts == [] then ""
    else Spaced(parts[..|parts| - 1]) + parts[|parts| - 1] + " "
  }

  /** A part that `strip()` would leave as it is and that is not empty. */
  predicate Clean(part: string)
  {
    part != [] && !IsSpace(part[0]) && !IsSpace(part[|part| - 1])
  }

  lemma {:induction false} SpacedSnoc(parts: seq<string>, p: string)
    ensures Spaced(parts + [p]) == Spaced(parts) + p + " "
  {
    assert (parts + [p])[..|parts|] == parts;
  }

  lemma {:induction false} JoinSnoc(parts: seq<string>, p: string, sep: string)
    requires parts != []
    ensures Join(parts + [p], sep) == Join(parts, sep) + sep + p
  {
    if |parts| == 1 {
      assert (parts + [p])[1..] == [p];
    } else {
      assert (parts + [p])[1..] == parts[1..] + [p];
      JoinSnoc(parts[1..], p, sep);
    }
  }

  /** The text built with a trailing space after every part is the space-join plus one space. */
  lemma {:induction false} SpacedIsJoin(parts: seq<string>)
    requires parts != []
    ensures Spaced(parts) == Join(parts, " ") + " "
  {
    var n := |parts| - 1;
    if n > 0 {
      SpacedIsJoin(parts[..n]);
      JoinSnoc(parts[..n], parts[n], " ");
      assert parts[..n] + [parts[n]] == parts;
    }
  }

  lemma {:induction false} JoinEnds(parts: seq<string>, sep: string)
    requires parts != [] && forall p :: p in parts ==> Clean(p)
    ensures Clean(Join(parts, sep))
  {
    if |parts| > 1 {
      assert parts[0] in parts;
      forall p | p in parts[1..] ensures Clean(p) { assert p in parts; }
      JoinEnds(parts[1..], sep);
    } else {
      assert parts[0] in parts;
    }
  }

  /** Stripping `text += part + ' '` over words that carry no surrounding whitespace yields
      the words joined by single spaces. */
  lemma {:induction false} StripSpacedIsJoin(parts: seq<string>)
    requires forall p :: p in parts ==> Clean(p)
    ensures Strip(Spaced(parts)) == Join(parts, " ")
  {
    if parts != [] {
      SpacedIsJoin(parts);
      JoinEnds(parts, " ");
      var j := Join(parts, " ");
      assert TrimLeft(j + " ") == j + " ";
      assert (j + " ")[..|j|] == j;
      assert TrimRight(j + " ") == TrimRight(j);
    }
  }
}

=== FILE: results.dfy ===
/** Option and Result values, and the few combinators the specification functions use
    to say "the first step that fails decides the outcome". A Python exception that
    escapes a function is modelled as an `Err` carrying what was raised. */
module Results {

  datatype Option<+T> = None | Some(value: T)

  datatype Result<+T, +E> = Ok(value: T) | Err(error: E)

  /** `xs` followed by whatever `r` produces; an error passes through unchanged. */
  function Prefixed<T, E>(xs: seq<T>, r: Result<seq<T>, E>): Result<seq<T>, E>
  {
    match r
    case Ok(ys) => Ok(xs + ys)
    case Err(e) => Err(e)
  }

  /** Run `first`, then `rest`: the first error wins, otherwise the outputs are concatenated. */
  function Then<T, E>(first: Result<seq<T>, E>, rest: Result<seq<T>, E>): Result<seq<T>, E>
  {
    match first
    case Ok(xs) => Prefixed(xs, rest)
    case Err(e) => Err(e)
  }

  /** A single produced value as a one-element output. */
  function Single<T, E>(r: Result<T, E>): Result<seq<T>, E>
  {
    match r
    case Ok(x) => Ok([x])
    case Err(e) => Err(e)
  }

  lemma {:induction false} PrefixedEmpty<T, E>(r: Result<seq<T>, E>)
    ensures Prefixed([], r) == r
  {
    if r.Ok? {
      assert [] + r.value == r.value;
    }
  }

  lemma {:induction false} PrefixedTwice<T, E>(xs: seq<T>, ys: seq<T>, r: Result<seq<T>, E>)
    ensures Prefixed(xs, Prefixed(ys, r)) == Prefixed(xs + ys, r)
  {
    if r.Ok? {
      assert xs + (ys + r.value) == (xs + ys) + r.value;
    }
  }

  lemma {:induction false} ThenPrefixed<T, E>(xs: seq<T>, r1: Result<seq<T>, E>, r2: Result<seq<T>, E>)
    ensures Then(Prefixed(xs, r1), r2) == Prefixed(xs, Then(r1, r2))
  {
    if r1.Ok? {
      PrefixedTwice(xs, r1.value, r2);
    }
  }

  lemma {:induction false} ThenAssoc<T, E>(r1: Result<seq<T>, E>, r2: Result<seq<T>, E>, r3: Result<seq<T>, E>)
    ensures Then(Then(r1, r2), r3) == Then(r1, Then(r2, r3))
  {
    if r1.Ok? {
      ThenPrefixed(r1.value, r2, r3);
    }
  }

  /** A single step followed by the rest succeeds exactly when both do. */
  lemma {:induction false} ThenSingle<T, E>(first: Result<T, E>, rest: Result<seq<T>, E>)
    ensures Then(Single(first), rest).Ok? <==> first.Ok? && rest.Ok?
    ensures Then(Single(first), rest).Ok? ==> Then(Single(first), rest).value == [first.value] + rest.value
  {
  }

  /** The outcomes of a sequence of steps, run in order: the first error wins, otherwise
      the produced values are collected. */
  function Collect<T, E>(rs: seq<Result<T, E>>): Result<seq<T>, E>
  {
    if rs == [] then Ok([]) else Then(Single(rs[0]), Collect(rs[1..]))
  }

  /** A successful run collected one value per step, the i-th step producing the i-th value. */
  lemma {:induction false} CollectOk<T, E>(rs: seq<Result<T, E>>, xs: seq<T>)
    requires Collect(rs) == Ok(xs)
    ensures |xs| == |rs|
    ensures forall i :: 0 <= i < |rs| ==> rs[i] == Ok(xs[i])
  {
    if rs != [] {
      var rest := Collect(rs[1..]);
      assert rs[0].Ok? && rest.Ok?;
      CollectOk(rs[1..], rest.value);
      assert xs == [rs[0].value] + rest.value;
      forall i | 1 <= i < |rs| ensures rs[i] == Ok(xs[i]) {
        assert rs[i] == rs[1..][i - 1];
      }
    }
  }

  /** A run fails with the error of its first failing step. */
  lemma {:induction false} CollectErr<T, E>(rs: seq<Result<T, E>>, i: nat)
    requires i < |rs| && rs[i].Err?
    requires forall j :: 0 <= j < i ==> rs[j].Ok?
    ensures Collect(rs) == Err(rs[i].error)
  {
    if i > 0 {
      CollectErr(rs[1..], i - 1);
    }
  }

  /** A run with a failing step fails. */
  lemma {:induction false} CollectFails<T, E>(rs: seq<Result<T, E>>, i: nat)
    requires i < |rs| && rs[i].Err?
    ensures Collect(rs).Err?
  {
    if rs[0].Ok? {
      CollectFails(rs[1..], i - 1);
    }
  }

  /** Collecting in two steps: the values produced by a prefix, then the rest. */
  lemma {:induction false} CollectStep<T, E>(rs: seq<Result<T, E>>, i: nat)
    requires i < |rs|
    ensures Collect(rs[i..]) == Then(Single(rs[i]), Collect(rs[i + 1..]))
  {
    assert rs[i..][0] == rs[i] && rs[i..][1..] == rs[i + 1..];
  }
}

=== FILE: textract_types.dfy ===
/** The parts of an Amazon Textract AnalyzeDocument response that the extraction reads.
    A block's optional fields are `Option`s: Textract omits `Text` on structural blocks,
    `Relationships` on leaf blocks, `EntityTypes` outside key-value sets and
    `SelectionStatus` outside selection elements, and Python's `block['Field']` raises
    `KeyError` when it is absent. `Id` and `BlockType` are on every block. */
module TextractTypes {
  import opened Results
  import opened JsonValue

  /** One entry of a block's `Relationships`: its `Type` (`CHILD`, `VALUE`, ...) and `Ids`. */
  datatype Relationship = Relationship(relType: string, ids: seq<string>)

  /** A block's `Geometry`; the bounding box is kept as the JSON object Textract sends. */
  datatype Geometry = Geometry(boundingBox: Option<Json>)

  datatype Block = Block(
    id: string,
    blockType: string,
    entityTypes: Option<seq<string>>,
    relationships: Option<seq<Relationship>>,
    text: Option<string>,
    selectionStatus: Option<string>,
    geometry: Option<Geometry>)

  /** An already-obtained response; only its `Blocks` list is read. */
  datatype Response = Response(blocks: seq<Block>)

  /** What escapes from the extraction functions when the response does not have the
      expected shape. */
  datatype Fault =
    | MissingField(blockId: string, field: string)  // KeyError on block[field]
    | UnknownId(id: string)                          // KeyError on block_map[id]
    | NotABlock                                      // TypeError: a lookup that found nothing (None) used as a block
    | UndefinedName(name: string)                    // NameError

  const LINE := "LINE"
  const WORD := "WORD"
  const KEY_VALUE_SET := "KEY_VALUE_SET"
  const SELECTION_ELEMENT := "SELECTION_ELEMENT"
  const TABLE := "TABLE"
  const KEY := "KEY"
  const CHILD := "CHILD"
  const VALUE := "VALUE"
  const SELECTED := "SELECTED"

  /** The ids of all relationships of type `t`, in order. */
  function IdsOfType(rels: seq<Relationship>, t: string): seq<string>
  {
    if rels == [] then []
    else (if rels[0].relType == t then rels[0].ids else []) + IdsOfType(rels[1..], t)
  }

  /** Only the relationships of type `t`, in order. */
  function OfType(rels: seq<Relationship>, t: string): seq<Relationship>
  {
    if rels == [] then []
    else (if rels[0].relType == t then [rels[0]] else []) + OfType(rels[1..], t)
  }

  lemma {:induction false} IdsOfTypeOnlyType(rels: seq<Relationship>, t: string)
    ensures IdsOfType(OfType(rels, t), t) == IdsOfType(rels, t)
  {
    if rels != [] {
      IdsOfTypeOnlyType(rels[1..], t);
      if rels[0].relType == t {
        var o := OfType(rels, t);
        assert o[0] == rels[0] && o[1..] == OfType(rels[1..], t);
        assert IdsOfType(o, t) == o[0].ids + IdsOfType(o[1..], t);
      } else {
        assert OfType(rels, t) == OfType(rels[1..], t);
      }
    }
  }
}
